=== FILE: README.md ===
# oadoi fetch layer and open-location classifiers, in Dafny

This project models two pure decision cores of the oadoi (Unpaywall) back end and proves properties of them.

- **The fetch layer** (`http_cache.py`) covers the following parts; the network itself is an oracle.
  - The declared-length size guard.
  - The 25 MiB bounded body reader and its memo.
  - The four-rule business-logic redirect resolver (`keep_redirecting`).
  - Defaulting of the identification headers.
  - The citeseerx https and proxy rewrite.
  - The transport retry policy selection.
  - The redirect chase of `call_requests_get`, at most five GETs.
  - The application retry loop of `http_get`: two attempts, three when asking slowly.
- **The open-access location classifiers** (`open_location.py`): `url_sort_score` and the `OpenLocation` properties, from `has_license` to `sort_score`.

Modules, one per file:

| module | file | content |
|---|---|---|
| `Outcomes` | outcomes.dfy | `Option`, `Result` |
| `Text` | text.dfy | Python 2 string operations used by the source: `in`, `startswith`, `endswith`, `lower` (ASCII), `replace`, `strip`, `split(c)[0]`, `int()` |
| `HttpModel` | http_model.dfy | bytes, headers, bodies, responses, exceptions, the outcome of one GET |
| `SizeGuard` | size_guard.dfy | `is_response_too_large` |
| `BodyReader` | body_reader.dfy | `content_big` / `content_small` |
| `Transport` | transport.dfy | `request_ua_headers`, header defaulting, retry policy, citeseerx route |
| `Redirects` | redirects.dfy | `keep_redirecting` and its four rules |
| `Fetch` | fetch.dfy | the loops of `call_requests_get` and `http_get` |
| `OpenLocations` | open_location.dfy | `url_sort_score` and the `OpenLocation` classifiers |

Modelling choices:

- **Helper functions as parameters.** Regex extractions, `urljoin`, `get_link_target`, `HTMLParser().unescape`, `urlparse(...).hostname`, `is_same_publisher` and response truthiness are fields of the record `Redirects.Oracles`. `is_doi_url` and `clean_doi` are fields of `OpenLocations.LocationHelpers`. These are function-valued fields, and every proof holds for all of them.
- **The network.** The network is a function `Fetch.Network` from the global index of a GET within one `http_get` call, plus the GET itself, to its outcome: a response or a raised exception.
- **Header names.** Response headers are keyed by lower-cased name, which is how the case-insensitive header dictionary looks them up.
- **`int()` of a header.** Python 2 `int()` is written out concretely (`Text.ParseInt`): surrounding whitespace, an optional sign, then decimal digits. Anything else raises `ValueError`, which propagates through `keep_redirecting` and `call_requests_get` and is retried by `http_get`.
- **Half-point scores.** Scores are doubled, so `-0.5` is `-1` and `-20` is `-40`. Lower ranks better.
- **Loops as recursive functions.** The two loops are recursive functions over a decreasing counter, not imperative loops. `Fetch.Chase` counts GETs in this call up to `HopLimit`. `Fetch.Attempts` counts failed attempts up to `MaxTries`.
- **What a GET records.** Each `Fetch.Get` records the URL the loop holds, the headers as sent, the proxy environment value, the retry policy and the other arguments. `Fetch.Wire` derives from it the URL and proxy map that actually go out.

Two facts about the code that the model keeps:

- The hop limit counts GETs, not redirects. The chase issues at most five GETs and consults the resolver only while fewer than five have been issued, so at most four redirects are followed.
- The JavaScript rule resolves its target through `get_link_target(target, r.url)`. The meta-refresh rule joins with `urljoin(r.request.url, ...)`. The model keeps the two helpers separate.

## Model

| member | source | states |
|---|---|---|
| SizeGuard.DeclaredLength | http_cache.py:32-39 | no `content-length` header gives no length; a header Python's `int()` accepts gives its value; any other header value raises `ValueError` |
| SizeGuard.IsResponseTooLarge | http_cache.py:31-42 | false without a declared length; for any parsed length n, negative ones included, the answer is whether n is at least 25,000,000; it raises exactly when the declared length does not parse |
| Text.ParseInt | http_cache.py:39 | `int()` of a decimal string, after stripping whitespace, is its value; a leading `+` or `-`, optionally followed by whitespace, then digits gives the value with that sign; a sign without digits after it, empty or blank text, and unsigned text with a non-digit raise `ValueError` |
| SizeGuard.TooLargeIffAtLeastThreshold | http_cache.py:36-42 | for every natural number n whose header is its plain numeral (no sign, padding or leading zeros), the guard answers true exactly when n is at least 25,000,000 |
| SizeGuard.NegativeLengthNotTooLarge | http_cache.py:36-42 | a header `-n` parses as a negative length, so the guard answers false rather than raising |
| Text.ParseIntOfNegated | http_cache.py:39 | `int("-" + str(n))` is -n |
| BodyReader.Accumulate | http_cache.py:125-132 | the read loop consumes whole chunks in order; its bytes are exactly the chunks it consumed; it stops early exactly when more than 25 MiB are held; every earlier boundary was within the cap |
| BodyReader.ReadCapped | http_cache.py:123-132 | the result is the concatenation of a chunk prefix, cut at the first boundary past 26,214,400 bytes; an untruncated read is the whole stream |
| BodyReader.ReadCappedIsPrefix | http_cache.py:125-131 | the capped read is a prefix of the full stream |
| BodyReader.TruncatedReadBounds | http_cache.py:123-131 | with chunks of at most 1 MiB, a truncated read holds more than 25 MiB and at most 26 MiB |
| BodyReader.ContentBig | http_cache.py:115-132 | a set memo is returned as is; without a raw stream the content is returned uncapped and memoised with the connection state unchanged; with one, the result is exactly the capped read of the chunks, a prefix of the stream and the whole stream when it holds at most 25 MiB, and the connection is closed exactly when it was closed already or the read stopped early |
| BodyReader.ContentSmall | http_cache.py:105-106 | `content_small` obeys the same memo and the same 25 MiB cap as `content_big`: a memo is returned as is; an unread raw stream yields exactly the capped read, a prefix of the stream that is the whole stream when small enough, and closes the connection exactly when that read stopped early |
| BodyReader.ContentMemoised | http_cache.py:105-117 | after one read, `content_big` and `content_small` both return the identical bytes and leave the body unchanged |
| Transport.RequestUaHeaders | http_cache.py:138-142 | exactly the two identification headers, with their fixed values |
| Transport.DefaultHeaders | http_cache.py:155-159 | the caller's headers plus `User-Agent` and `From`; every caller value is kept; the defaults fill only missing keys |
| Transport.DefaultHeadersIdempotent | http_cache.py:155-159 | adding the defaults to already defaulted headers changes nothing, so the in-place update on the caller's dict does not change later attempts |
| Transport.TransportRetries | http_cache.py:166-173 | one transport retry when asking slowly, none otherwise; backoff 0.1 s and statuses 500, 502, 503, 504 in both cases |
| Transport.RouteFor | http_cache.py:177-182 | a URL containing `citeseerx.ist.psu.edu/` gets both proxy entries set to the environment value; every `http://` in such a URL is rewritten, so none is left; any other URL goes out unchanged with an empty proxy map |
| Transport.CiteseerxForcesHttps | http_cache.py:177-178 | a citeseerx URL given as `http://...` is requested as `https://...` |
| Transport.CiteseerxSchemeRewritten | http_cache.py:177-178 | a citeseerx URL `http://` + rest, with no other `http://`, is requested as exactly `https://` + rest |
| Transport.CiteseerxHttpsUnchanged | http_cache.py:177-180 | a citeseerx URL containing no `http://` is requested unchanged |
| Redirects.JsRule | http_cache.py:57-66 | fires exactly when the declared length is below 500 and the script pattern matches; a target starting with `/` is resolved against the response URL, any other is returned verbatim |
| Redirects.OvidAnRule | http_cache.py:69-74 | fires exactly for the Ovid publisher with an AN token, and then yields the linkback template filled with that token |
| Redirects.JournalRule | http_cache.py:77-83 | fires only for a host ending in `ovid.com`, and there yields the extracted journal URL |
| Redirects.MetaRule | http_cache.py:86-99 | a result is the stripped, unescaped `url=` of the first refresh tag joined with the request URL; it never ends in `Error/JavaScript.html`, and a join that does end in it is dropped |
| Redirects.FirstSomeWins | http_cache.py:53-101 | the first firing candidate in the list is the one returned |
| Redirects.KeepRedirecting | http_cache.py:53-101 | raises exactly when the declared length does not parse, and then only `ValueError`; otherwise the body is read once through the memo and the response keeps its message and encoding; an unread raw body leaves the connection closed exactly when it was closed already or the capped read stopped early, and any other unread body leaves it as it was |
| Redirects.ResolverFirstMatchWins | http_cache.py:53-101 | if rule i (JavaScript, Ovid AN, ovid.com journal URL, meta refresh) fires and no earlier rule does, the resolver returns rule i's URL |
| Redirects.ResolverNoneIffNoRule | http_cache.py:53-101 | the resolver answers None exactly when none of the four rules fires |
| Redirects.OvidLinkbackRedirect | http_cache.py:69-74 | with the Ovid publisher and an AN token, and no short JavaScript page, the next URL is exactly the linkback URL with that AN |
| Redirects.ResolverSuppressesErrorPage | http_cache.py:94-99 | a resolved URL ending in `Error/JavaScript.html` can only come from one of the first three rules, never from a meta refresh |
| Fetch.GetFor | http_cache.py:185-192 | each GET carries the loop's URL, the defaulted headers, the request's timeouts, stream and verify flags, proxy value and the selected retry policy |
| Fetch.Wire | http_cache.py:177-182 | citeseerx GETs go out with both proxy entries; all others go out on the loop's URL with an empty proxy map |
| Fetch.DefaultEncoding | http_cache.py:198-199 | a truthy response without an encoding gets utf-8; nothing else about the response changes |
| Fetch.HopAt | http_cache.py:185-208 | a raised GET fails with its exception; a non-200 stops with that response; a 200 at the fifth GET stops with it; a 200 below the limit fails with the resolver's `ValueError`, follows the URL the resolver returns when non-empty, and otherwise stops with the response |
| Fetch.HopKeepsMessage | http_cache.py:198-208 | a pass fails only with the GET's own exception or `ValueError`, and stops only with the response that GET returned |
| Fetch.Chase | http_cache.py:161-210 | the chase issues between one and five GETs, the first for the starting URL, all with the same headers and retry policy |
| Fetch.ChaseRedirectsOnlyAfter200 | http_cache.py:202-208 | every GET of the chase but the last was answered with status 200 |
| Fetch.ChaseHop | http_cache.py:202-208 | a second GET is issued only after a 200 below the hop limit, when the resolver answered with a non-empty URL, and the rest of the chase starts from that URL |
| Fetch.ChaseFollowsRedirect | http_cache.py:201-208 | after a 200 below the hop limit, a non-empty resolved URL is the target of the second GET, sent with the same headers, and the chase ends as the chase from that URL does |
| Fetch.ChaseStopsOnRaise | http_cache.py:185-192 | a GET that raises ends the chase at once with that exception after that one GET |
| Fetch.ChaseStopsOnNon200 | http_cache.py:204-210 | a non-200 answer ends the chase at once with that response |
| Fetch.ChaseReturnsLastFetched | http_cache.py:161-210 | the chase ends with the outcome of its last GET: that GET's response, its exception, or a `ValueError` from the resolver |
| Fetch.CallRequestsGet | http_cache.py:144-210 | at most five GETs, so at most four business-logic redirects; the first GET is for the request's URL with the defaulted headers |
| Fetch.CallRequestsGetReturnsLastFetched | http_cache.py:161-210 | `call_requests_get` returns the response to the last GET it issued, or that GET's exception, or a `ValueError` |
| Fetch.ChaseAllRaise | http_cache.py:185-192 | when every GET raises, the chase raises that exception after one GET |
| Fetch.Attempts | http_cache.py:236-263 | between one and `max_tries` attempts (3 when asking slowly, else 2), each of one to five GETs; an exception leaves the loop only if it is fatal or all tries are used |
| Fetch.PersistentFailureExhaustsTries | http_cache.py:257-263 | if every attempt from some point on fails with the same ordinary exception, however many GETs each issues, the loop re-raises it after exactly the remaining `max_tries` attempts; with one GET per attempt it issues one GET per attempt |
| Fetch.FirstSuccessReturned | http_cache.py:242-254 | the first attempt that succeeds ends the loop with its response |
| Fetch.FatalPropagatesAtOnce | http_cache.py:255-256 | `KeyboardInterrupt`, `SystemError` or `SystemExit` from any attempt, at any try, ends the loop with that attempt's GETs, whichever GET of its chase raised it |
| Fetch.MaxTries | http_cache.py:236-238 | three tries when asking slowly, two otherwise |
| Fetch.AttemptsEndWithFinalAttempt | http_cache.py:242-269 | the loop's result and GETs are those of its final attempt, preceded by the GETs of the failed attempts |
| Fetch.HttpAttempt | http_cache.py:244-253 | every attempt of `http_get` issues between one and five GETs |
| Fetch.RetrySendsSameRequest | http_cache.py:155-159 | a retry, which sees the caller's dict already filled with the defaults, sends the same GETs and gets the same result as the first attempt would |
| Fetch.HttpGet | http_cache.py:213-269 | at most `max_tries` attempts and at most five GETs per attempt; a returned exception is fatal or comes after all tries |
| Fetch.HttpGetReturnsLastFetched | http_cache.py:242-269 | `http_get` returns the response to the very last GET it issued, or that GET's exception, or a `ValueError` from the resolver |
| Fetch.HttpGetPersistentFailure | http_cache.py:257-263 | if every GET raises the same ordinary exception, exactly `max_tries` GETs are made and that exception is re-raised |
| Fetch.HttpGetFatalAtOnce | http_cache.py:255-256 | a fatal exception from the first `call_requests_get` leaves `http_get` after that one attempt, with exactly that attempt's GETs |
| Fetch.HttpGetFatalInRetry | http_cache.py:255-256 | a fatal exception from any later attempt likewise ends `http_get` after that single attempt, with exactly its GETs |
| OpenLocations.UrlSortScore | open_location.py:19-51 | the doubled score always lies in [-11, 38], i.e. [-5.5, 19] |
| OpenLocations.UrlSortScoreFirstMatch | open_location.py:22-51 | the first host pattern present decides the host score (`/pmc/` -5, `arxiv` -4, `/pubmed/` -3, `.edu` -2, `citeseerx` +9); ftp then adds 10, otherwise pdf takes 0.5, never both |
| OpenLocations.UrlSortScoreNoMatch | open_location.py:42-51 | with no host pattern, only the format adjustment remains: +10 exactly when ftp occurs; without ftp, -0.5 exactly when pdf occurs, else 0 |
| OpenLocations.UrlSortScoreIgnoresCase | open_location.py:19-20 | the score is the same for a URL and its lower-cased form |
| OpenLocations.CiteseerxHostScoresAsEdu | open_location.py:36-40 | a URL on `citeseerx.ist.psu.edu` never gets the citeseerx +9, because `.edu` is tested first |
| OpenLocations.HasLicense | open_location.py:80-86 | a licence counts exactly when it is present and neither empty nor `unknown` |
| OpenLocations.BestUrl | open_location.py:88-92 | the pdf URL when it is truthy, else the metadata URL; a best URL exists exactly when one of the two is truthy |
| OpenLocations.BaseCollection | open_location.py:94-98 | None exactly when there is no harvesting id; otherwise the longest prefix of the id without `:`, followed in the id by `:` or by its end |
| OpenLocations.BaseCollectionOfId | open_location.py:94-98 | an id written as `code:rest` with no `:` in code yields code |
| OpenLocations.PublisherCollectionOfId | open_location.py:100-111 | a copy with id `code:rest` is in a publisher collection exactly when code is one of the four publisher codes |
| OpenLocations.IsPublisherBaseCollection | open_location.py:100-111 | never without a harvesting id; true exactly when the id's repository code is one of the publisher codes |
| OpenLocations.DisplayEvidence | open_location.py:125-129 | empty exactly without evidence; never contains `hybrid`; equals evidence that has no `hybrid`; evidence starting with `hybrid` or `open` is shown starting with `open` |
| OpenLocations.HybridEvidenceShownOpen | open_location.py:125-129 | evidence `hybrid` + rest, with no other `hybrid`, is shown as exactly `open` + rest |
| OpenLocations.ShownEvidence | open_location.py:127-128 | replacing `hybrid` by `open` keeps non-empty evidence non-empty, removes every `hybrid`, and keeps an `open` prefix |
| OpenLocations.IsGold | open_location.py:119-123 | gold exactly when the shown evidence contains `oa journal`; never without evidence |
| OpenLocations.IsDoajJournal | open_location.py:137-139 | true exactly when the shown evidence (`hybrid` read as `open`) contains `doaj`, so never without evidence; on evidence without `hybrid`, exactly when the raw text contains `doaj` |
| OpenLocations.JournalTestsOnRawEvidence | open_location.py:119-139 | without evidence a copy is neither gold nor DOAJ; on evidence without `hybrid`, gold means it contains `oa journal` and DOAJ means it contains `doaj` |
| OpenLocations.OpenOrHybridEvidenceIsHybrid | open_location.py:151-156 | evidence starting with `hybrid` or `open` makes the copy hybrid whatever its links and collection |
| OpenLocations.IsHybrid | open_location.py:151-165 | shown evidence starting with `open` makes a copy hybrid, and so does a publisher collection; failing both, it is hybrid exactly when its best URL is a DOI URL that cleans to its own DOI and it is not gold |
| OpenLocations.PublisherCollectionIsHybrid | open_location.py:151-158 | a copy whose id is `code:rest` with a publisher code is hybrid and publisher-hosted, whatever its evidence and links |
| OpenLocations.HostType | open_location.py:131-135 | `publisher` exactly for gold or hybrid copies, `repository` otherwise |
| OpenLocations.OaColor | open_location.py:168-179 | gold copies are `gold`; hybrid copies that are not gold are `bronze`; a repository copy is `gray` exactly when its shown evidence is `closed` or it has no best URL, `green` exactly when it has a best URL and evidence other than `closed`, and uncoloured exactly when it has a best URL and no evidence |
| OpenLocations.PublisherColours | open_location.py:168-173 | the colour is gold or bronze exactly when the host type is publisher |
| OpenLocations.NoColourOnlyWithoutEvidence | open_location.py:168-179 | no colour is given only to a repository copy that has a best URL and no evidence at all |
| OpenLocations.HybridEvidenceIsBronze | open_location.py:168-173 | hybrid evidence on a copy that is not gold gives bronze |
| OpenLocations.SortScore | open_location.py:203-228 | publisher copies score -20; repository copies without `oa repo` evidence score 0; with it, no best URL raises `AttributeError` and no version raises `TypeError`; otherwise the score is the URL score minus 10 for `publishedVersion`, 5 for `acceptedVersion`, 0.5 for `pmcid lookup` and 1 for `doi` (doubled: 20, 10, 1, 2); any score lies in [-22, 19] |
| OpenLocations.PublisherOutranksRepository | open_location.py:203-228 | a publisher copy ranks strictly before every scored repository copy whose version does not name both `publishedVersion` and `acceptedVersion` |
| OpenLocations.DoubleVersionReachesPublisherRank | open_location.py:209-216 | a pmc repository copy without ftp whose version names both stages scores at or below the publisher rank |

## Left out

- The HTTP machinery is not modelled:
  - `requests.Session`, `DelayedAdapter` and session mounting.
  - The behaviour of the `Retry` policy: backoff and status retries. The model records only which policy is selected.
  - The transport's own 3xx handling.
  - Cookies and the session id, which are passed through unchanged.
- The monkey-patching of `Response` through `inspect` (http_cache.py:195-196) is not modelled: the bounded reader is a function on an explicit `Body`.
- Logging, `time()`/`elapsed`, the `HTTP_PROXY` reset and `os.getenv` are left out. The proxy environment value is an input field of `Fetch.Request`.
- The helpers are uninterpreted: regex engine, `urljoin`, `get_link_target`, HTML unescaping, hostname parsing, `is_same_publisher`, response truthiness, `is_doi_url` and `clean_doi`. Exceptions these helpers might raise are not modelled.
- Exceptions raised while streaming the body inside `content_small` are not modelled; the body is a finite list of chunks.
- `Text.Lower` lower-cases ASCII letters only. Python's `unicode.lower` also maps non-ASCII letters, and some of them to ASCII: `İ` (U+0130) lowers to `i`, so the source scores `http://arXİv.org/x` as `-4` (`arxiv` matches) where the model gives it 0. Unicode case mapping is not modelled.
- requests merges the environment proxies (`http_proxy`, `https_proxy`, `all_proxy`, `no_proxy`) into every request whose own proxy map leaves a scheme unset. The model records the explicit proxy map only: an empty map for every URL but citeseerx.
- Fetch.Chase and Fetch.Attempts are recursive functions, not imperative loops. Each pass of the source's loop is one recursive call with the same guard and counter.
- `cache_enabled` and `allow_redirects` of `http_get` are accepted and ignored by the source, so they are not in `Fetch.Request`.
- `is_reported_noncompliant` is not modelled: it is only the disjunction of two calls of the uninterpreted `is_reported_noncompliant_url`.
- `set_pmc_version` and `PmcidPublishedVersionLookup` are not modelled: they need a database query. `version` is an input field.
- `is_pmc` is not modelled. It is only a regular-expression test on `best_url`, and its only use is in `set_pmc_version`, which is left out.
- `__init__` (random id), `display_updated` (datetime), `__repr__`, `to_dict` and `to_dict_v2` are not modelled; they are construction and formatting glue.
- The database columns are not modelled.
- The unused `MAX_PAYLOAD_SIZE_BYTES` constant is not modelled.
- OpenLocations.OaColor: the logging call on the no-evidence path is omitted.

=== FILE: body_reader.dfy ===
/** The bounded body reader attached to every response: reads the body in
    1 MiB chunks, stops once more than 25 MiB have been accumulated, and
    memoises what it read. */
module BodyReader {
  import opened Outcomes
  import opened HttpModel

  const Megabyte: nat := 1024 * 1024
  /** 25 MiB = 26,214,400 bytes. */
  const MaxSize: nat := 25 * Megabyte

  /** The concatenation of a sequence of chunks. */
  function Flatten(chunks: seq<Bytes>): Bytes
    decreases |chunks|
  {
    if |chunks| == 0 then [] else Flatten(chunks[..|chunks| - 1]) + chunks[|chunks| - 1]
  }

  lemma FlattenSnoc(chunks: seq<Bytes>, i: nat)
    requires i < |chunks|
    ensures Flatten(chunks[..i + 1]) == Flatten(chunks[..i]) + chunks[i]
  {
    assert chunks[..i + 1][..i] == chunks[..i];
  }

  /** Reading fewer chunks gives a prefix of reading more. */
  lemma {:induction false} FlattenPrefix(chunks: seq<Bytes>, i: nat, j: nat)
    requires i <= j <= |chunks|
    ensures Flatten(chunks[..i]) <= Flatten(chunks[..j])
    decreases j - i
  {
    if i < j {
      FlattenPrefix(chunks, i, j - 1);
      FlattenSnoc(chunks, j - 1);
    }
  }

  /** What the reader produced: the bytes, how many chunks it consumed and
      whether it stopped early (and closed the connection). */
  datatype Capped = Capped(data: Bytes, count: nat, truncated: bool)

  /** The read loop from chunk i on, `acc` holding the first i chunks. */
  function Accumulate(chunks: seq<Bytes>, i: nat, acc: Bytes): (c: Capped)
    requires i <= |chunks| && acc == Flatten(chunks[..i]) && |acc| <= MaxSize
    ensures i <= c.count <= |chunks|
    ensures c.data == Flatten(chunks[..c.count])
    ensures c.truncated <==> |c.data| > MaxSize
    ensures !c.truncated ==> c.count == |chunks|
    ensures forall j :: i <= j < c.count ==> |Flatten(chunks[..j])| <= MaxSize
    decreases |chunks| - i
  {
    if i == |chunks| then Capped(acc, i, false)
    else
      FlattenSnoc(chunks, i);
      var acc' := acc + chunks[i];
      if |acc'| > MaxSize then Capped(acc', i + 1, true)
      else Accumulate(chunks, i + 1, acc')
  }

  /** The streamed read: the first `count` chunks, where `count` is the first
      chunk boundary at which more than MaxSize bytes have been read, or all
      chunks when that never happens. */
  function ReadCapped(chunks: seq<Bytes>): (c: Capped)
    ensures c.count <= |chunks| && c.data == Flatten(chunks[..c.count])
    ensures c.truncated <==> |c.data| > MaxSize
    ensures !c.truncated ==> c.data == Flatten(chunks)
    ensures forall j :: 0 <= j < c.count ==> |Flatten(chunks[..j])| <= MaxSize
  {
    assert chunks[..0] == [];
    var c := Accumulate(chunks, 0, []);
    assert !c.truncated ==> chunks[..c.count] == chunks;
    c
  }

  /** The capped read returns a prefix of the full stream. */
  lemma ReadCappedIsPrefix(chunks: seq<Bytes>)
    ensures ReadCapped(chunks).data <= Flatten(chunks)
  {
    var c := ReadCapped(chunks);
    FlattenPrefix(chunks, c.count, |chunks|);
    assert chunks[..|chunks|] == chunks;
  }

  /** With chunks of at most 1 MiB, a truncated read holds more than 25 MiB
      and at most 26 MiB. */
  lemma {:induction false} TruncatedReadBounds(chunks: seq<Bytes>)
    requires forall i :: 0 <= i < |chunks| ==> |chunks[i]| <= Megabyte
    requires ReadCapped(chunks).truncated
    ensures MaxSize < |ReadCapped(chunks).data| <= MaxSize + Megabyte
  {
    var c := ReadCapped(chunks);
    var k := c.count;
    assert chunks[..0] == [];
    assert k > 0;
    FlattenSnoc(chunks, k - 1);
    assert |Flatten(chunks[..k - 1])| <= MaxSize;
  }

  /** `content_big`: returns the memo if set; without a raw stream it
      memoises `content` as it is; otherwise it performs the capped read,
      closes the connection when it stopped early, and memoises the bytes.
      The second component is the body afterwards. */
  function ContentBig(b: Body): (res: (Bytes, Body))
    ensures res.1.read == Some(res.0)
    ensures b.read.Some? ==> res == (b.read.value, b)
    ensures b.read.None? && !b.raw ==> res.0 == b.content && res.1.closed == b.closed
    ensures b.read.None? && b.raw ==>
      && res.0 == ReadCapped(b.chunks).data
      && res.0 <= Flatten(b.chunks)
      && (|res.0| <= MaxSize ==> res.0 == Flatten(b.chunks))
      && res.1.closed == (b.closed || ReadCapped(b.chunks).truncated)
      && (res.1.closed <==> b.closed || |res.0| > MaxSize)
    ensures res.1.raw == b.raw && res.1.content == b.content && res.1.chunks == b.chunks
  {
    if b.read.Some? then (b.read.value, b)
    else if !b.raw then (b.content, b.(read := Some(b.content)))
    else
      var c := ReadCapped(b.chunks);
      ReadCappedIsPrefix(b.chunks);
      (c.data, b.(read := Some(c.data), closed := b.closed || c.truncated))
  }

  /** `content_small` currently delegates to `content_big`, so it obeys the
      same cap and the same memo. */
  function ContentSmall(b: Body): (res: (Bytes, Body))
    ensures res.1.read == Some(res.0)
    ensures b.read.Some? ==> res == (b.read.value, b)
    ensures b.read.None? && !b.raw ==> res.0 == b.content && res.1.closed == b.closed
    ensures b.read.None? && b.raw ==>
      && res.0 == ReadCapped(b.chunks).data
      && res.0 <= Flatten(b.chunks)
      && (|res.0| <= MaxSize ==> res.0 == Flatten(b.chunks))
      && res.1.closed == (b.closed || ReadCapped(b.chunks).truncated)
      && (res.1.closed <==> b.closed || |res.0| > MaxSize)
    ensures res.1.raw == b.raw && res.1.content == b.content && res.1.chunks == b.chunks
  {
    ContentBig(b)
  }

  /** Once read, the body is read no more: every later call returns the
      identical bytes and leaves the body as it is. */
  lemma ContentMemoised(b: Body)
    ensures ContentBig(ContentBig(b).1) == ContentBig(b)
    ensures ContentSmall(ContentBig(b).1) == ContentBig(b)
  {
  }
}

=== FILE: fetch.dfy ===
/** The two loops of the fetch layer. `call_requests_get` chases
    business-logic redirects, issuing at most five GETs; `http_get` wraps it
    in an application-level retry loop of two attempts (three when asking
    slowly). The network is an oracle: the outcome of the n-th GET of a call
    to `http_get` is `net(n, get)`. */
module Fetch {
  import opened Outcomes
  import opened Text
  import opened HttpModel
  import opened Transport
  import opened Redirects

  /** GETs per call of `call_requests_get`; so at most four redirects. */
  const HopLimit: nat := 5

  /** The arguments of `http_get` that reach the network or the resolver.
      `proxyEnv` is the value of the proxy environment variable. */
  datatype Request = Request(
    url: string,
    headers: Headers,
    readTimeout: int,
    connectTimeout: int,
    stream: bool,
    publisher: Option<string>,
    askSlowly: bool,
    verify: bool,
    proxyEnv: Option<string>)

  /** One GET as the loop asks for it: the URL it holds, the headers, the
      proxy setting and the session's retry policy. `Wire` gives the URL and
      proxies that go out. */
  datatype Get = Get(
    url: string,
    headers: Headers,
    proxyEnv: Option<string>,
    retries: RetryPolicy,
    connectTimeout: int,
    readTimeout: int,
    stream: bool,
    verify: bool)

  /** The outcome of the n-th GET issued within one `http_get` call. */
  type Network = (nat, Get) -> Outcome

  /** The GET issued for `url`, with the headers as sent and the transport
      retry policy of the request. */
  function GetFor(q: Request, hdrs: Headers, url: string): (g: Get)
    ensures g.url == url && g.headers == hdrs && g.retries == TransportRetries(q.askSlowly)
    ensures g.proxyEnv == q.proxyEnv
    ensures g.connectTimeout == q.connectTimeout && g.readTimeout == q.readTimeout
    ensures g.stream == q.stream && g.verify == q.verify
  {
    Get(url, hdrs, q.proxyEnv, TransportRetries(q.askSlowly), q.connectTimeout, q.readTimeout, q.stream, q.verify)
  }

  /** What goes out for a GET: citeseerx is reached over https through the
      proxy, everything else unchanged with an empty proxy map. */
  function Wire(g: Get): (rt: Route)
    ensures Contains(g.url, CiteseerxHost) ==> rt.proxies.Keys == {"https", "http"}
    ensures !Contains(g.url, CiteseerxHost) ==> rt == Route(g.url, map[])
  {
    RouteFor(g.url, g.proxyEnv)
  }

  /** A truthy response without an encoding gets utf-8; nothing else changes. */
  function DefaultEncoding(r: Response, o: Oracles): (r': Response)
    ensures SameMessage(r', r) && r'.body == r.body
    ensures o.truthy(r) && !Present(r.encoding) ==> r'.encoding == Some("utf-8")
    ensures !(o.truthy(r) && !Present(r.encoding)) ==> r' == r
  {
    if o.truthy(r) && !Present(r.encoding) then r.(encoding := Some("utf-8")) else r
  }

  /** A redirect resolver with everything but the response bound. */
  type Resolver = Response -> Decision

  /** The resolver as the chase loop calls it: `keep_redirecting` with the
      request's publisher bound. The loops below are stated for any resolver
      `resolve` and instantiated with this one. */
  function Resolve(q: Request, o: Oracles): Resolver {
    r => KeepRedirecting(r, q.publisher, o)
  }

  /** What the loops need to know of a resolver: it raises nothing but
      `ValueError` and hands back the same message it was given. */
  ghost predicate KeepsMessage(resolve: Resolver) {
    forall r :: SameMessage(resolve(r).response, r) &&
      (resolve(r).result.Err? ==> resolve(r).result.error == ValueError)
  }

  lemma ResolveKeepsMessage(q: Request, o: Oracles)
    ensures KeepsMessage(Resolve(q, o))
  {
    forall r ensures SameMessage(Resolve(q, o)(r).response, r) &&
      (Resolve(q, o)(r).result.Err? ==> Resolve(q, o)(r).result.error == ValueError)
    {
      var d := KeepRedirecting(r, q.publisher, o);
      assert Resolve(q, o)(r) == d;
    }
  }

  /** What one GET of the chase leads to: an exception, a response to
      return, or a URL to fetch next. */
  datatype Hop = Fail(exc: Exc) | Stop(response: Response) | Next(target: string)

  /** One pass of the chase loop: GET `url`, default the encoding, and when
      the answer is a 200 and fewer than five GETs have been issued, ask the
      resolver. Only a non-empty URL from the resolver is followed. */
  function HopAt(q: Request, hdrs: Headers, net: Network, o: Oracles, resolve: Resolver,
                 url: string, hops: nat, k: nat): (h: Hop)
    ensures h.Next? ==>
      && net(k, GetFor(q, hdrs, url)).Responded?
      && net(k, GetFor(q, hdrs, url)).response.status == 200
      && hops + 1 < HopLimit
      && h.target != ""
    ensures net(k, GetFor(q, hdrs, url)).Raised? ==> h == Fail(net(k, GetFor(q, hdrs, url)).exc)
    ensures net(k, GetFor(q, hdrs, url)).Responded? && net(k, GetFor(q, hdrs, url)).response.status != 200 ==>
      h == Stop(DefaultEncoding(net(k, GetFor(q, hdrs, url)).response, o))
    ensures var sent := net(k, GetFor(q, hdrs, url));
      sent.Responded? && sent.response.status == 200 && hops + 1 >= HopLimit ==>
        h == Stop(DefaultEncoding(sent.response, o))
    ensures var sent := net(k, GetFor(q, hdrs, url));
      sent.Responded? && sent.response.status == 200 && hops + 1 < HopLimit ==>
        var d := resolve(DefaultEncoding(sent.response, o));
        && (d.result.Err? ==> h == Fail(d.result.error))
        && (d.result.Ok? && Present(d.result.value) ==> h == Next(d.result.value.value))
        && (d.result.Ok? && !Present(d.result.value) ==> h == Stop(d.response))
  {
    match net(k, GetFor(q, hdrs, url))
    case Raised(e) => Fail(e)
    case Responded(resp) =>
      var r := DefaultEncoding(resp, o);
      if r.status == 200 && hops + 1 < HopLimit then
        var d := resolve(r);
        if d.result.Err? then Fail(d.result.error)
        else if Present(d.result.value) then Next(d.result.value.value)
        else Stop(d.response)
      else Stop(r)
  }

  /** With a resolver that keeps the message, a hop fails with the GET's own
      exception or a `ValueError`, and stops with the response it fetched. */
  lemma HopKeepsMessage(q: Request, hdrs: Headers, net: Network, o: Oracles, resolve: Resolver,
                        url: string, hops: nat, k: nat)
    requires KeepsMessage(resolve)
    ensures var h := HopAt(q, hdrs, net, o, resolve, url, hops, k);
      var sent := net(k, GetFor(q, hdrs, url));
      && (h.Fail? ==> (sent.Raised? && h.exc == sent.exc) || h.exc == ValueError)
      && (h.Stop? ==> sent.Responded? && SameMessage(h.response, sent.response))
  {
    var sent := net(k, GetFor(q, hdrs, url));
    if sent.Responded? {
      var r := DefaultEncoding(sent.response, o);
      assert SameMessage(resolve(r).response, r);
    }
  }

  /** The result of one `call_requests_get`: the response returned or the
      exception raised, and the GETs issued, in order. */
  datatype Trace = Trace(outcome: Result<Response, Exc>, gets: seq<Get>)

  /** The redirect chase from `url`, with `hops` GETs already issued in this
      call and `k` GETs issued before it in the enclosing `http_get`. */
  function Chase(q: Request, hdrs: Headers, net: Network, o: Oracles, resolve: Resolver,
                 url: string, hops: nat, k: nat): (t: Trace)
    requires hops < HopLimit
    ensures 1 <= |t.gets| <= HopLimit - hops
    ensures t.gets[0] == GetFor(q, hdrs, url)
    ensures forall i :: 0 <= i < |t.gets| ==>
      t.gets[i].headers == hdrs && t.gets[i].retries == TransportRetries(q.askSlowly)
    decreases HopLimit - hops
  {
    var g := GetFor(q, hdrs, url);
    match HopAt(q, hdrs, net, o, resolve, url, hops, k)
    case Fail(e) => Trace(Err(e), [g])
    case Stop(r) => Trace(Ok(r), [g])
    case Next(u) =>
      var rest := Chase(q, hdrs, net, o, resolve, u, hops + 1, k + 1);
      Trace(rest.outcome, [g] + rest.gets)
  }

  /** Unfolding the chase at a followed redirect to `u`; the rest of the
      chase has `hops'` GETs behind it in this call and `k'` in all. */
  lemma ChaseAtNext(q: Request, hdrs: Headers, net: Network, o: Oracles, resolve: Resolver,
                    url: string, hops: nat, k: nat, u: string, hops': nat, k': nat)
    requires hops < HopLimit
    requires HopAt(q, hdrs, net, o, resolve, url, hops, k) == Next(u)
    requires hops' == hops + 1 && k' == k + 1
    ensures hops' < HopLimit
    ensures Chase(q, hdrs, net, o, resolve, url, hops, k).outcome == Chase(q, hdrs, net, o, resolve, u, hops', k').outcome
    ensures Chase(q, hdrs, net, o, resolve, url, hops, k).gets ==
      [GetFor(q, hdrs, url)] + Chase(q, hdrs, net, o, resolve, u, hops', k').gets
  {
  }

  /** A hop that stops ends the chase with that response after one GET. */
  lemma ChaseAtStop(q: Request, hdrs: Headers, net: Network, o: Oracles, resolve: Resolver,
                    url: string, hops: nat, k: nat, r: Response)
    requires hops < HopLimit
    requires HopAt(q, hdrs, net, o, resolve, url, hops, k) == Stop(r)
    ensures Chase(q, hdrs, net, o, resolve, url, hops, k) == Trace(Ok(r), [GetFor(q, hdrs, url)])
  {
  }

  /** A hop that fails ends the chase with that exception after one GET. */
  lemma ChaseAtFail(q: Request, hdrs: Headers, net: Network, o: Oracles, resolve: Resolver,
                    url: string, hops: nat, k: nat, e: Exc)
    requires hops < HopLimit
    requires HopAt(q, hdrs, net, o, resolve, url, hops, k) == Fail(e)
    ensures Chase(q, hdrs, net, o, resolve, url, hops, k) == Trace(Err(e), [GetFor(q, hdrs, url)])
  {
  }

  /** A GET answered with a 200, put in front of GETs all answered with a
      200 but the last, keeps that shape. */
  lemma AnsweredPrefix(net: Network, k: nat, g: Get, rest: seq<Get>)
    requires net(k, g).Responded? && net(k, g).response.status == 200
    requires forall i :: 0 <= i < |rest| - 1 ==>
      net(k + 1 + i, rest[i]).Responded? && net(k + 1 + i, rest[i]).response.status == 200
    ensures var all := [g] + rest;
      forall i :: 0 <= i < |all| - 1 ==>
        net(k + i, all[i]).Responded? && net(k + i, all[i]).response.status == 200
  {
    var all := [g] + rest;
    forall i | 0 <= i < |all| - 1
      ensures net(k + i, all[i]).Responded? && net(k + i, all[i]).response.status == 200
    {
      if i > 0 {
        assert all[i] == rest[i - 1];
        assert k + i == k + 1 + (i - 1);
      }
    }
  }

  /** Every GET but the last was answered with a 200 and followed by a
      redirect: a redirect is considered only after a 200. */
  lemma {:induction false} ChaseRedirectsOnlyAfter200(q: Request, hdrs: Headers, net: Network, o: Oracles, resolve: Resolver,
                                                      url: string, hops: nat, k: nat)
    requires hops < HopLimit
    ensures var t := Chase(q, hdrs, net, o, resolve, url, hops, k);
      forall i :: 0 <= i < |t.gets| - 1 ==>
        net(k + i, t.gets[i]).Responded? && net(k + i, t.gets[i]).response.status == 200
    decreases HopLimit - hops
  {
    var t := Chase(q, hdrs, net, o, resolve, url, hops, k);
    var g := GetFor(q, hdrs, url);
    var h := HopAt(q, hdrs, net, o, resolve, url, hops, k);
    match h
    case Stop(r) => ChaseAtStop(q, hdrs, net, o, resolve, url, hops, k, r);
    case Fail(e) => ChaseAtFail(q, hdrs, net, o, resolve, url, hops, k, e);
    case Next(u) =>
      ChaseAtNext(q, hdrs, net, o, resolve, url, hops, k, u, hops + 1, k + 1);
      ChaseRedirectsOnlyAfter200(q, hdrs, net, o, resolve, u, hops + 1, k + 1);
      var rest := Chase(q, hdrs, net, o, resolve, u, hops + 1, k + 1);
      assert t.gets == [g] + rest.gets;
      AnsweredPrefix(net, k, g, rest.gets);
  }

  /** One step of the chase: when a second GET is issued, the first was a
      200 below the hop limit, the resolver answered with a non-empty URL
      `u`, and the rest of the chase starts from `u`. */
  lemma ChaseHop(q: Request, hdrs: Headers, net: Network, o: Oracles, resolve: Resolver,
                 url: string, hops: nat, k: nat)
    returns (u: string)
    requires hops < HopLimit
    requires |Chase(q, hdrs, net, o, resolve, url, hops, k).gets| >= 2
    ensures net(k, GetFor(q, hdrs, url)).Responded?
    ensures var r := DefaultEncoding(net(k, GetFor(q, hdrs, url)).response, o);
      && r.status == 200
      && hops + 1 < HopLimit
      && resolve(r).result == Ok(Some(u))
      && u != ""
      && Chase(q, hdrs, net, o, resolve, url, hops, k).gets[1..] == Chase(q, hdrs, net, o, resolve, u, hops + 1, k + 1).gets
      && Chase(q, hdrs, net, o, resolve, url, hops, k).outcome == Chase(q, hdrs, net, o, resolve, u, hops + 1, k + 1).outcome
  {
    var h := HopAt(q, hdrs, net, o, resolve, url, hops, k);
    u := h.target;
    ChaseAtNext(q, hdrs, net, o, resolve, url, hops, k, u, hops + 1, k + 1);
    var rest := Chase(q, hdrs, net, o, resolve, u, hops + 1, k + 1);
    assert ([GetFor(q, hdrs, url)] + rest.gets)[1..] == rest.gets;
  }

  /** A 200 below the hop limit for which the resolver names a non-empty
      URL `u` is followed: the next GET is for `u`, and the chase ends as
      the chase from `u` does. */
  lemma ChaseFollowsRedirect(q: Request, hdrs: Headers, net: Network, o: Oracles, resolve: Resolver,
                             url: string, hops: nat, k: nat, u: string)
    requires hops + 1 < HopLimit
    requires net(k, GetFor(q, hdrs, url)).Responded?
    requires net(k, GetFor(q, hdrs, url)).response.status == 200
    requires resolve(DefaultEncoding(net(k, GetFor(q, hdrs, url)).response, o)).result == Ok(Some(u))
    requires u != ""
    ensures var t := Chase(q, hdrs, net, o, resolve, url, hops, k);
      && |t.gets| >= 2
      && t.gets[1] == GetFor(q, hdrs, u)
      && t.outcome == Chase(q, hdrs, net, o, resolve, u, hops + 1, k + 1).outcome
  {
    assert HopAt(q, hdrs, net, o, resolve, url, hops, k) == Next(u);
    ChaseAtNext(q, hdrs, net, o, resolve, url, hops, k, u, hops + 1, k + 1);
  }

  /** A GET that raises ends the chase at once with its exception, at
      whatever hop it happens. */
  lemma ChaseStopsOnRaise(q: Request, hdrs: Headers, net: Network, o: Oracles, resolve: Resolver,
                          url: string, hops: nat, k: nat)
    requires hops < HopLimit
    requires net(k, GetFor(q, hdrs, url)).Raised?
    ensures Chase(q, hdrs, net, o, resolve, url, hops, k) ==
      Trace(Err(net(k, GetFor(q, hdrs, url)).exc), [GetFor(q, hdrs, url)])
  {
    ChaseAtFail(q, hdrs, net, o, resolve, url, hops, k, net(k, GetFor(q, hdrs, url)).exc);
  }

  /** A non-200 answer ends the chase at once with that response. */
  lemma ChaseStopsOnNon200(q: Request, hdrs: Headers, net: Network, o: Oracles, resolve: Resolver,
                           url: string, hops: nat, k: nat)
    requires hops < HopLimit
    requires net(k, GetFor(q, hdrs, url)).Responded?
    requires net(k, GetFor(q, hdrs, url)).response.status != 200
    ensures Chase(q, hdrs, net, o, resolve, url, hops, k) ==
      Trace(Ok(DefaultEncoding(net(k, GetFor(q, hdrs, url)).response, o)), [GetFor(q, hdrs, url)])
  {
  }

  /** A trace ends with the outcome of its last GET: that GET's response
      (up to the reader's memo and the encoding default), its exception, or
      the `ValueError` of an unparsable declared length. `k` is the network
      index of the trace's first GET. */
  ghost predicate EndsWithLastGet(t: Trace, net: Network, k: nat)
    requires |t.gets| > 0
  {
    var last := net(k + |t.gets| - 1, t.gets[|t.gets| - 1]);
    && (t.outcome.Ok? ==> last.Responded? && SameMessage(t.outcome.value, last.response))
    && (t.outcome.Err? ==> (last.Raised? && t.outcome.error == last.exc) || t.outcome.error == ValueError)
  }

  /** GETs issued before a trace do not change how it ends. */
  lemma EndsWithLastGetAfter(t: Trace, rest: Trace, before: seq<Get>, net: Network, k: nat)
    requires |rest.gets| > 0
    requires t.outcome == rest.outcome && t.gets == before + rest.gets
    requires EndsWithLastGet(rest, net, k + |before|)
    ensures EndsWithLastGet(t, net, k)
  {
    assert t.gets[|t.gets| - 1] == rest.gets[|rest.gets| - 1];
  }

  /** The chase ends with the outcome of its last GET. */
  lemma {:induction false} ChaseReturnsLastFetched(q: Request, hdrs: Headers, net: Network, o: Oracles, resolve: Resolver,
                                                   url: string, hops: nat, k: nat)
    requires hops < HopLimit
    requires KeepsMessage(resolve)
    ensures EndsWithLastGet(Chase(q, hdrs, net, o, resolve, url, hops, k), net, k)
    decreases HopLimit - hops
  {
    var t := Chase(q, hdrs, net, o, resolve, url, hops, k);
    var h := HopAt(q, hdrs, net, o, resolve, url, hops, k);
    HopKeepsMessage(q, hdrs, net, o, resolve, url, hops, k);
    var g := GetFor(q, hdrs, url);
    if h.Next? {
      ChaseAtNext(q, hdrs, net, o, resolve, url, hops, k, h.target, hops + 1, k + 1);
      ChaseReturnsLastFetched(q, hdrs, net, o, resolve, h.target, hops + 1, k + 1);
      var rest := Chase(q, hdrs, net, o, resolve, h.target, hops + 1, k + 1);
      EndsWithLastGetAfter(t, rest, [g], net, k);
    } else if h.Stop? {
      ChaseAtStop(q, hdrs, net, o, resolve, url, hops, k, h.response);
    } else {
      ChaseAtFail(q, hdrs, net, o, resolve, url, hops, k, h.exc);
    }
  }

  /** `call_requests_get` on the caller's `headers`, starting at global
      GET index `k0`: the defaults are added, then the chase runs from the
      request's URL with `keep_redirecting` as the resolver. */
  function CallRequestsGet(q: Request, headers: Headers, net: Network, o: Oracles, k0: nat): (t: Trace)
    ensures 1 <= |t.gets| <= HopLimit
    ensures t.gets[0] == GetFor(q, DefaultHeaders(headers), q.url)
  {
    Chase(q, DefaultHeaders(headers), net, o, Resolve(q, o), q.url, 0, k0)
  }

  /** `call_requests_get` returns the response to its last GET, or that
      GET's exception, or the `ValueError` of an unparsable declared length. */
  lemma CallRequestsGetReturnsLastFetched(q: Request, headers: Headers, net: Network, o: Oracles, k0: nat)
    ensures EndsWithLastGet(CallRequestsGet(q, headers, net, o, k0), net, k0)
  {
    ResolveKeepsMessage(q, o);
    ChaseReturnsLastFetched(q, DefaultHeaders(headers), net, o, Resolve(q, o), q.url, 0, k0);
  }

  /** When every GET raises `e`, the chase stops after its first GET. */
  lemma ChaseAllRaise(q: Request, hdrs: Headers, net: Network, o: Oracles, resolve: Resolver,
                      url: string, hops: nat, k: nat, e: Exc)
    requires hops < HopLimit
    requires forall i, g :: net(i, g) == Raised(e)
    ensures Chase(q, hdrs, net, o, resolve, url, hops, k) == Trace(Err(e), [GetFor(q, hdrs, url)])
  {
    assert net(k, GetFor(q, hdrs, url)) == Raised(e);
    ChaseAtFail(q, hdrs, net, o, resolve, url, hops, k, e);
  }

  /** Application-level attempts: 2, or 3 when asking slowly. */
  function MaxTries(askSlowly: bool): (n: nat)
    ensures askSlowly ==> n == 3
    ensures !askSlowly ==> n == 2
  {
    if askSlowly then 3 else 2
  }

  /** One attempt of the retry loop, as a function of the global index of
      its first GET. */
  type Attempt = nat -> Trace

  /** Every attempt issues between one and `HopLimit` GETs. */
  ghost predicate Bounded(attempt: Attempt) {
    forall k :: 1 <= |attempt(k).gets| <= HopLimit
  }

  /** The result of one `http_get`: the response or exception it ends with,
      the number of attempts made, and every GET issued. */
  datatype Fetched = Fetched(outcome: Result<Response, Exc>, attempts: nat, gets: seq<Get>)

  /** The retry loop with `tries` failed attempts behind it and `k` GETs
      issued so far. A fatal exception propagates at once; any other one is
      counted and retried until `MaxTries` attempts have failed. */
  function Attempts(askSlowly: bool, attempt: Attempt, tries: nat, k: nat): (f: Fetched)
    requires Bounded(attempt)
    requires tries < MaxTries(askSlowly)
    ensures 1 <= f.attempts <= MaxTries(askSlowly) - tries
    ensures f.attempts <= |f.gets| <= HopLimit * f.attempts
    ensures f.outcome.Err? ==> Fatal(f.outcome.error) || f.attempts == MaxTries(askSlowly) - tries
    decreases MaxTries(askSlowly) - tries
  {
    var c := attempt(k);
    match c.outcome
    case Ok(r) => Fetched(Ok(r), 1, c.gets)
    case Err(e) =>
      if Fatal(e) || tries + 1 >= MaxTries(askSlowly) then Fetched(Err(e), 1, c.gets)
      else
        var rest := Attempts(askSlowly, attempt, tries + 1, k + |c.gets|);
        Fetched(rest.outcome, 1 + rest.attempts, c.gets + rest.gets)
  }

  /** A persistent ordinary exception: every attempt raises the same
      non-fatal exception, after however many GETs. Then exactly `MaxTries`
      attempts are made and the exception is re-raised; when each attempt
      issues one GET, so many GETs are issued in all. */
  lemma {:induction false} PersistentFailureExhaustsTries(askSlowly: bool, attempt: Attempt, e: Exc, tries: nat, k: nat)
    requires Bounded(attempt)
    requires !Fatal(e)
    requires forall j :: attempt(j).outcome == Err(e)
    requires tries < MaxTries(askSlowly)
    ensures var f := Attempts(askSlowly, attempt, tries, k);
      f.outcome == Err(e) && f.attempts == MaxTries(askSlowly) - tries
    ensures (forall j :: |attempt(j).gets| == 1) ==>
      |Attempts(askSlowly, attempt, tries, k).gets| == Attempts(askSlowly, attempt, tries, k).attempts
    decreases MaxTries(askSlowly) - tries
  {
    assert attempt(k).outcome == Err(e);
    if tries + 1 < MaxTries(askSlowly) {
      PersistentFailureExhaustsTries(askSlowly, attempt, e, tries + 1, k + |attempt(k).gets|);
    }
  }

  /** The first attempt that succeeds ends the loop with its response. */
  lemma FirstSuccessReturned(askSlowly: bool, attempt: Attempt, tries: nat, k: nat)
    requires Bounded(attempt)
    requires tries < MaxTries(askSlowly)
    requires attempt(k).outcome.Ok?
    ensures Attempts(askSlowly, attempt, tries, k) == Fetched(attempt(k).outcome, 1, attempt(k).gets)
  {
  }

  /** A fatal exception ends the loop with the attempt that raised it,
      whichever attempt that is: it is neither counted nor retried. */
  lemma FatalPropagatesAtOnce(askSlowly: bool, attempt: Attempt, e: Exc, tries: nat, k: nat)
    requires Bounded(attempt)
    requires tries < MaxTries(askSlowly)
    requires Fatal(e) && attempt(k).outcome == Err(e)
    ensures Attempts(askSlowly, attempt, tries, k) == Fetched(Err(e), 1, attempt(k).gets)
  {
  }

  /** The loop returns what its final attempt returned: that attempt
      starts at global GET index `j`, after the GETs `before` of the failed
      attempts, and supplies the outcome and the remaining GETs. */
  lemma {:induction false} AttemptsEndWithFinalAttempt(askSlowly: bool, attempt: Attempt, tries: nat, k: nat)
    returns (j: nat, before: seq<Get>)
    requires Bounded(attempt)
    requires tries < MaxTries(askSlowly)
    ensures j == k + |before|
    ensures Attempts(askSlowly, attempt, tries, k).outcome == attempt(j).outcome
    ensures Attempts(askSlowly, attempt, tries, k).gets == before + attempt(j).gets
    decreases MaxTries(askSlowly) - tries
  {
    var c := attempt(k);
    if c.outcome.Err? && !Fatal(c.outcome.error) && tries + 1 < MaxTries(askSlowly) {
      var j', before' := AttemptsEndWithFinalAttempt(askSlowly, attempt, tries + 1, k + |c.gets|);
      j, before := j', c.gets + before';
      AppendAssoc(c.gets, before', attempt(j).gets);
    } else {
      j, before := k, [];
      assert before + c.gets == c.gets;
    }
  }

  lemma AppendAssoc<T>(a: seq<T>, b: seq<T>, c: seq<T>)
    ensures (a + b) + c == a + (b + c)
  {
  }

  /** The attempt `http_get` makes: `call_requests_get` on the header dict
      the caller passed. */
  function HttpAttempt(q: Request, net: Network, o: Oracles): (attempt: Attempt)
    ensures Bounded(attempt)
  {
    (k: nat) => CallRequestsGet(q, q.headers, net, o, k)
  }

  /** The first call adds the defaults to the caller's dict in place, so
      every later attempt passes the filled dict; that sends the same GETs
      and yields the same result. */
  lemma RetrySendsSameRequest(q: Request, net: Network, o: Oracles, k: nat)
    ensures CallRequestsGet(q, DefaultHeaders(q.headers), net, o, k) == CallRequestsGet(q, q.headers, net, o, k)
  {
    DefaultHeadersIdempotent(q.headers);
  }

  /** `http_get`: the retry loop over `call_requests_get`. */
  function HttpGet(q: Request, net: Network, o: Oracles): (f: Fetched)
    ensures 1 <= f.attempts <= MaxTries(q.askSlowly)
    ensures f.attempts <= |f.gets| <= HopLimit * f.attempts
    ensures f.outcome.Err? ==> Fatal(f.outcome.error) || f.attempts == MaxTries(q.askSlowly)
  {
    Attempts(q.askSlowly, HttpAttempt(q, net, o), 0, 0)
  }

  /** `http_get` returns the response to the very last GET it issued, or
      that GET's exception, or a `ValueError` from `keep_redirecting`. */
  lemma HttpGetReturnsLastFetched(q: Request, net: Network, o: Oracles)
    ensures var f := HttpGet(q, net, o);
      EndsWithLastGet(Trace(f.outcome, f.gets), net, 0)
  {
    var attempt := HttpAttempt(q, net, o);
    var f := HttpGet(q, net, o);
    var j, before := AttemptsEndWithFinalAttempt(q.askSlowly, attempt, 0, 0);
    CallRequestsGetReturnsLastFetched(q, q.headers, net, o, j);
    EndsWithLastGetAfter(Trace(f.outcome, f.gets), attempt(j), before, net, 0);
  }

  /** When every GET raises the same ordinary exception, `http_get` makes
      exactly `MaxTries` attempts of one GET each and re-raises it. */
  lemma HttpGetPersistentFailure(q: Request, net: Network, o: Oracles, e: Exc)
    requires !Fatal(e)
    requires forall i, g :: net(i, g) == Raised(e)
    ensures var f := HttpGet(q, net, o);
      f.outcome == Err(e) && f.attempts == MaxTries(q.askSlowly) && |f.gets| == f.attempts
  {
    var attempt := HttpAttempt(q, net, o);
    forall j ensures attempt(j).outcome == Err(e) && |attempt(j).gets| == 1 {
      ChaseAllRaise(q, DefaultHeaders(q.headers), net, o, Resolve(q, o), q.url, 0, j, e);
    }
    PersistentFailureExhaustsTries(q.askSlowly, attempt, e, 0, 0);
  }

  /** A fatal exception raised by any GET of the first attempt, the first
      or one after redirects, leaves `http_get` with that attempt's GETs
      only. */
  lemma HttpGetFatalAtOnce(q: Request, net: Network, o: Oracles, e: Exc)
    requires Fatal(e)
    requires CallRequestsGet(q, q.headers, net, o, 0).outcome == Err(e)
    ensures HttpGet(q, net, o) == Fetched(Err(e), 1, CallRequestsGet(q, q.headers, net, o, 0).gets)
  {
    FatalPropagatesAtOnce(q.askSlowly, HttpAttempt(q, net, o), e, 0, 0);
  }

  /** A fatal exception in a retry ends `http_get` there as well: the
      attempt starting at GET `k` after `tries` failures is the last. */
  lemma HttpGetFatalInRetry(q: Request, net: Network, o: Oracles, e: Exc, tries: nat, k: nat)
    requires tries < MaxTries(q.askSlowly)
    requires Fatal(e)
    requires CallRequestsGet(q, q.headers, net, o, k).outcome == Err(e)
    ensures Attempts(q.askSlowly, HttpAttempt(q, net, o), tries, k) ==
      Fetched(Err(e), 1, CallRequestsGet(q, q.headers, net, o, k).gets)
  {
    FatalPropagatesAtOnce(q.askSlowly, HttpAttempt(q, net, o), e, tries, k);
  }
}

=== FILE: http_model.dfy ===
/** The data the fetch layer exchanges with the network: responses with
    their (possibly streamed) bodies, the exceptions a GET can raise, and the
    outcome of one GET. */
module HttpModel {
  import opened Outcomes

  newtype byte = x: int | 0 <= x < 256
  type Bytes = seq<byte>

  /** Header mapping. For responses the keys are the lower-cased header
      names, which is how a case-insensitive header dictionary looks them up. */
  type Headers = map<string, string>

  /** A response body: either already materialised (`raw` false: `content`
      is the body) or a stream whose `iter_content` yields `chunks`.
      `read` is the memoised `content_read`; `closed` records that the
      connection was closed by the bounded reader. */
  datatype Body = Body(raw: bool, content: Bytes, chunks: seq<Bytes>, read: Option<Bytes>, closed: bool)

  /** A response as the fetch layer sees it. `url` is the final URL after the
      transport's own 3xx handling; `requestUrl` is the URL of the request
      that produced it. */
  datatype Response = Response(
    status: int,
    headers: Headers,
    url: string,
    requestUrl: string,
    encoding: Option<string>,
    body: Body)

  /** Exceptions that can leave one GET or one redirect decision. */
  datatype Exc =
    | KeyboardInterrupt
    | SystemError
    | SystemExit
    | ValueError
    | TransportError(name: string)

  /** The control exceptions the retry loop re-raises without counting. */
  predicate Fatal(e: Exc) {
    e.KeyboardInterrupt? || e.SystemError? || e.SystemExit?
  }

  /** What the network does with one GET. */
  datatype Outcome = Raised(exc: Exc) | Responded(response: Response)

  /** Two responses are the same message from the server: they differ at most
      in the reader's memo, its closed flag and the text encoding. */
  predicate SameMessage(r: Response, r0: Response) {
    && r.status == r0.status
    && r.headers == r0.headers
    && r.url == r0.url
    && r.requestUrl == r0.requestUrl
    && r.body.raw == r0.body.raw
    && r.body.content == r0.body.content
    && r.body.chunks == r0.body.chunks
  }
}

=== FILE: open_location.dfy ===
/** The classification of one open-access copy of an article: where it is
    hosted, which colour of open access it shows, and how it ranks against
    other copies. Scores are kept as integers scaled by 2, so the source's
    half-points stay exact; lower ranks better. */
module OpenLocations {
  import opened Outcomes
  import opened Text

  /** Host patterns of `url_sort_score` with their (doubled) scores, in the
      order they are tried. */
  const HostPatterns: seq<(string, int)> :=
    [("/pmc/", -10), ("arxiv", -8), ("/pubmed/", -6), (".edu", -4), ("citeseerx", 18)]

  /** The host part of the score: the first pattern found wins. */
  function HostScore(u: string): int {
    if Contains(u, "/pmc/") then -10
    else if Contains(u, "arxiv") then -8
    else if Contains(u, "/pubmed/") then -6
    else if Contains(u, ".edu") then -4
    else if Contains(u, "citeseerx") then 18
    else 0
  }

  /** The format part: ftp costs 20, otherwise a pdf gains 1. */
  function FormatScore(u: string): int {
    if Contains(u, "ftp") then 20
    else if Contains(u, "pdf") then -1
    else 0
  }

  /** `url_sort_score`, doubled: matching is on the lower-cased URL. */
  function UrlSortScore(url: string): (r: int)
    ensures -11 <= r <= 38
  {
    var u := Lower(url);
    HostScore(u) + FormatScore(u)
  }

  /** The first host pattern present decides the host score, and the format
      adjustment is +20 for ftp, else -1 for pdf, never both. */
  lemma UrlSortScoreFirstMatch(url: string, i: nat)
    requires i < |HostPatterns|
    requires Contains(Lower(url), HostPatterns[i].0)
    requires forall j :: 0 <= j < i ==> !Contains(Lower(url), HostPatterns[j].0)
    ensures Contains(Lower(url), "ftp") ==> UrlSortScore(url) == HostPatterns[i].1 + 20
    ensures !Contains(Lower(url), "ftp") && Contains(Lower(url), "pdf") ==>
      UrlSortScore(url) == HostPatterns[i].1 - 1
    ensures !Contains(Lower(url), "ftp") && !Contains(Lower(url), "pdf") ==>
      UrlSortScore(url) == HostPatterns[i].1
  {
    var u := Lower(url);
    if i > 0 { assert !Contains(u, HostPatterns[0].0); }
    if i > 1 { assert !Contains(u, HostPatterns[1].0); }
    if i > 2 { assert !Contains(u, HostPatterns[2].0); }
    if i > 3 { assert !Contains(u, HostPatterns[3].0); }
  }

  /** With no host pattern present only the format adjustment remains. */
  lemma UrlSortScoreNoMatch(url: string)
    requires forall j :: 0 <= j < |HostPatterns| ==> !Contains(Lower(url), HostPatterns[j].0)
    ensures UrlSortScore(url) in {20, -1, 0}
    ensures UrlSortScore(url) == 20 <==> Contains(Lower(url), "ftp")
    ensures !Contains(Lower(url), "ftp") ==> (UrlSortScore(url) == -1 <==> Contains(Lower(url), "pdf"))
  {
    var u := Lower(url);
    assert !Contains(u, HostPatterns[0].0) && !Contains(u, HostPatterns[1].0);
    assert !Contains(u, HostPatterns[2].0) && !Contains(u, HostPatterns[3].0);
    assert !Contains(u, HostPatterns[4].0);
  }

  /** The score does not depend on letter case. */
  lemma UrlSortScoreIgnoresCase(url: string)
    ensures UrlSortScore(Lower(url)) == UrlSortScore(url)
  {
    LowerIdempotent(url);
  }

  /** The citeseerx host lives under `.edu`, which is tested first, so a
      citeseerx URL on that host never receives the citeseerx score. */
  lemma CiteseerxHostScoresAsEdu(url: string)
    requires Contains(Lower(url), "citeseerx.ist.psu.edu")
    ensures HostScore(Lower(url)) in {-10, -8, -6, -4}
    ensures UrlSortScore(url) <= 16
  {
    assert OccursAt("citeseerx.ist.psu.edu", ".edu", 17);
    ContainsFromOccurrence("citeseerx.ist.psu.edu", ".edu", 17);
    ContainsTransitive(Lower(url), "citeseerx.ist.psu.edu", ".edu");
  }

  /** One copy as stored: every field is a nullable string. */
  datatype OpenLocation = OpenLocation(
    doi: Option<string>,
    pdfUrl: Option<string>,
    metadataUrl: Option<string>,
    license: Option<string>,
    evidence: Option<string>,
    pmhId: Option<string>,
    version: Option<string>)

  /** Library helpers the classifiers consult, left uninterpreted:
      `is_doi_url` and `clean_doi`. */
  datatype LocationHelpers = LocationHelpers(
    isDoiUrl: Option<string> -> bool,
    cleanDoi: Option<string> -> Option<string>)

  /** `has_license`: a licence is known unless it is missing, empty or
      literally "unknown". */
  function HasLicense(loc: OpenLocation): (r: bool)
    ensures r <==> loc.license.Some? && loc.license.value !in {"", "unknown"}
  {
    if !Present(loc.license) then false
    else loc.license.value != "unknown"
  }

  /** `best_url`: the pdf link when there is one, else the landing page. */
  function BestUrl(loc: OpenLocation): (r: Option<string>)
    ensures Present(loc.pdfUrl) ==> r == loc.pdfUrl
    ensures !Present(loc.pdfUrl) ==> r == loc.metadataUrl
    ensures Present(r) <==> Present(loc.pdfUrl) || Present(loc.metadataUrl)
  {
    if Present(loc.pdfUrl) then loc.pdfUrl else loc.metadataUrl
  }

  /** `base_collection`: the repository code in front of the first `:` of
      the harvesting id, or None without an id. */
  function BaseCollection(loc: OpenLocation): (r: Option<string>)
    ensures r.None? <==> !Present(loc.pmhId)
    ensures r.Some? ==> StartsWith(loc.pmhId.value, r.value) && ':' !in r.value
    ensures r.Some? && |r.value| < |loc.pmhId.value| ==> loc.pmhId.value[|r.value|] == ':'
  {
    if !Present(loc.pmhId) then None
    else Some(BeforeFirst(loc.pmhId.value, ':'))
  }

  /** An id built as `code:rest` yields back its code. */
  lemma BaseCollectionOfId(loc: OpenLocation, code: string, rest: string)
    requires ':' !in code && loc.pmhId == Some(code + [':'] + rest)
    ensures BaseCollection(loc) == Some(code)
  {
    BeforeFirstOfJoin(code, ':', rest);
  }

  /** Repository codes that are publisher platforms (the source lists
      "ftdoajarticles" twice; a set holds it once). */
  const PublisherCollections: set<string> :=
    {"fthighwire", "ftdoajarticles", "crelsevierbv", "ftcopernicus"}

  /** `is_publisher_base_collection`: the id's repository code is one of
      the publisher codes; never without an id. */
  function IsPublisherBaseCollection(loc: OpenLocation): (r: bool)
    ensures !Present(loc.pmhId) ==> !r
    ensures r <==> BaseCollection(loc).Some? && BaseCollection(loc).value in PublisherCollections
  {
    var c := BaseCollection(loc);
    if !Present(c) then false
    else c.value in PublisherCollections
  }

  /** A copy harvested under a publisher code counts as a publisher one;
      any other code, or no id, does not. */
  lemma PublisherCollectionOfId(loc: OpenLocation, code: string, rest: string)
    requires ':' !in code && loc.pmhId == Some(code + [':'] + rest)
    ensures IsPublisherBaseCollection(loc) <==> code in PublisherCollections
  {
    BaseCollectionOfId(loc, code, rest);
  }

  /** `display_evidence`: the stored evidence with the word "hybrid" shown
      as "open", or "" without evidence. */
  function DisplayEvidence(loc: OpenLocation): (r: string)
    ensures r == "" <==> !Present(loc.evidence)
    ensures !Contains(r, "hybrid")
    ensures Present(loc.evidence) && !Contains(loc.evidence.value, "hybrid") ==> r == loc.evidence.value
    ensures Present(loc.evidence) && StartsWith(loc.evidence.value, "hybrid") ==> StartsWith(r, "open")
    ensures Present(loc.evidence) && StartsWith(loc.evidence.value, "open") ==> StartsWith(r, "open")
  {
    if Present(loc.evidence) then
      ShownEvidence(loc.evidence.value);
      ReplaceAll(loc.evidence.value, "hybrid", "open")
    else
      TooShortToContain("", "hybrid");
      ""
  }

  /** Evidence recorded as "hybrid" followed by text without another
      "hybrid" is shown as "open" followed by that same text. */
  lemma HybridEvidenceShownOpen(loc: OpenLocation, rest: string)
    requires loc.evidence == Some("hybrid" + rest) && !Contains(rest, "hybrid")
    ensures DisplayEvidence(loc) == "open" + rest
  {
    var e := "hybrid" + rest;
    assert StartsWith(e, "hybrid");
    assert e[6..] == rest;
    ReplaceAllAbsent(rest, "hybrid", "open");
  }

  /** What replacing "hybrid" by "open" does to non-empty evidence. */
  lemma ShownEvidence(e: string)
    requires e != ""
    ensures var r := ReplaceAll(e, "hybrid", "open");
      r != "" && !Contains(r, "hybrid") &&
      (!Contains(e, "hybrid") ==> r == e) &&
      (StartsWith(e, "hybrid") || StartsWith(e, "open") ==> StartsWith(r, "open"))
  {
    ReplaceAllNonEmpty(e, "hybrid", "open");
    ReplaceAllEliminates(e, "hybrid", "open");
    if !Contains(e, "hybrid") {
      ReplaceAllAbsent(e, "hybrid", "open");
    }
    if StartsWith(e, "hybrid") {
      ReplaceAllLeading(e, "hybrid", "open");
    }
    if StartsWith(e, "open") {
      ReplaceAllKeepsPrefix(e, "open", "hybrid", "open");
    }
  }

  /** `is_gold`: the shown evidence names an open-access journal. */
  function IsGold(loc: OpenLocation): (r: bool)
    ensures r <==> Contains(DisplayEvidence(loc), "oa journal")
    ensures r ==> Present(loc.evidence)
  {
    var d := DisplayEvidence(loc);
    d != "" && Contains(d, "oa journal")
  }

  /** `is_doaj_journal`: the shown evidence names the DOAJ. */
  function IsDoajJournal(loc: OpenLocation): (r: bool)
    ensures r <==> Contains(DisplayEvidence(loc), "doaj")
    ensures r ==> Present(loc.evidence)
    ensures Present(loc.evidence) && !Contains(loc.evidence.value, "hybrid") ==>
      (r <==> Contains(loc.evidence.value, "doaj"))
  {
    TooShortToContain("", "doaj");
    Contains(DisplayEvidence(loc), "doaj")
  }

  /** Gold and DOAJ are read off the evidence itself whenever it does not
      mention "hybrid", and are false without evidence. */
  lemma JournalTestsOnRawEvidence(loc: OpenLocation)
    ensures !Present(loc.evidence) ==> !IsGold(loc) && !IsDoajJournal(loc)
    ensures Present(loc.evidence) && !Contains(loc.evidence.value, "hybrid") ==>
      (IsGold(loc) <==> Contains(loc.evidence.value, "oa journal")) &&
      (IsDoajJournal(loc) <==> Contains(loc.evidence.value, "doaj"))
  {
    if !Present(loc.evidence) {
      TooShortToContain("", "doaj");
    }
  }

  /** `is_hybrid`: open evidence or a publisher collection make it hybrid;
      failing both, a DOI link that resolves to the copy's own DOI does,
      unless the copy is gold. */
  function IsHybrid(loc: OpenLocation, h: LocationHelpers): (r: bool)
    ensures StartsWith(DisplayEvidence(loc), "open") ==> r
    ensures IsPublisherBaseCollection(loc) ==> r
    ensures !StartsWith(DisplayEvidence(loc), "open") && !IsPublisherBaseCollection(loc) ==>
      (r <==> h.isDoiUrl(BestUrl(loc)) && !IsGold(loc) && h.cleanDoi(BestUrl(loc)) == loc.doi)
  {
    var d := DisplayEvidence(loc);
    if d != "" && StartsWith(d, "open") then true
    else if IsPublisherBaseCollection(loc) then true
    else if h.isDoiUrl(BestUrl(loc)) then
      if IsGold(loc) then false
      else h.cleanDoi(BestUrl(loc)) == loc.doi
    else false
  }

  /** Evidence recorded as "hybrid ..." or "open ..." always makes the copy
      hybrid, whatever its links and collection. */
  lemma OpenOrHybridEvidenceIsHybrid(loc: OpenLocation, h: LocationHelpers)
    requires Present(loc.evidence)
    requires StartsWith(loc.evidence.value, "hybrid") || StartsWith(loc.evidence.value, "open")
    ensures IsHybrid(loc, h)
  {
    assert StartsWith(DisplayEvidence(loc), "open");
  }

  /** A copy harvested from a publisher collection is hybrid, whatever its
      evidence and links. */
  lemma PublisherCollectionIsHybrid(loc: OpenLocation, h: LocationHelpers, code: string, rest: string)
    requires ':' !in code && code in PublisherCollections
    requires loc.pmhId == Some(code + [':'] + rest)
    ensures IsHybrid(loc, h)
    ensures HostType(loc, h) == Publisher
  {
    PublisherCollectionOfId(loc, code, rest);
  }

  const Publisher := "publisher"
  const Repository := "repository"

  /** `host_type`. */
  function HostType(loc: OpenLocation, h: LocationHelpers): (r: string)
    ensures r == Publisher <==> IsGold(loc) || IsHybrid(loc, h)
    ensures r in {Publisher, Repository}
  {
    if IsGold(loc) || IsHybrid(loc, h) then Publisher else Repository
  }

  /** `oa_color`: gold, then bronze (hybrid), then gray (closed or no link);
      None when the evidence is missing, green otherwise. */
  function OaColor(loc: OpenLocation, h: LocationHelpers): (r: Option<string>)
    ensures IsGold(loc) ==> r == Some("gold")
    ensures !IsGold(loc) && IsHybrid(loc, h) ==> r == Some("bronze")
    ensures HostType(loc, h) == Repository ==>
      && (r == Some("gray") <==> DisplayEvidence(loc) == "closed" || !Present(BestUrl(loc)))
      && (r == Some("green") <==> Present(BestUrl(loc)) && DisplayEvidence(loc) !in {"", "closed"})
      && (r == None <==> Present(BestUrl(loc)) && DisplayEvidence(loc) == "")
    ensures r.Some? ==> r.value in {"gold", "bronze", "gray", "green"}
  {
    if IsGold(loc) then Some("gold")
    else if IsHybrid(loc, h) then Some("bronze")
    else if DisplayEvidence(loc) == "closed" || !Present(BestUrl(loc)) then Some("gray")
    else if DisplayEvidence(loc) == "" then None
    else Some("green")
  }

  /** The colour is gold or bronze exactly for publisher-hosted copies. */
  lemma PublisherColours(loc: OpenLocation, h: LocationHelpers)
    ensures OaColor(loc, h) in {Some("gold"), Some("bronze")} <==> HostType(loc, h) == Publisher
  {
  }

  /** No colour is given only to a repository copy that has a link but no
      evidence at all. */
  lemma NoColourOnlyWithoutEvidence(loc: OpenLocation, h: LocationHelpers)
    ensures OaColor(loc, h).None? ==>
      !Present(loc.evidence) && Present(BestUrl(loc)) && HostType(loc, h) == Repository
  {
  }

  /** Hybrid evidence on a copy that is not gold is shown bronze. */
  lemma HybridEvidenceIsBronze(loc: OpenLocation, h: LocationHelpers)
    requires Present(loc.evidence) && StartsWith(loc.evidence.value, "hybrid") && !IsGold(loc)
    ensures OaColor(loc, h) == Some("bronze")
  {
    OpenOrHybridEvidenceIsHybrid(loc, h);
  }

  /** The Python errors `sort_score` can raise on a repository copy:
      `None.lower()` without a link, `in None` without a version. */
  datatype PyError = AttributeError | TypeError

  /** Doubled deductions for the version and the evidence trail. */
  function VersionBonus(v: string): int {
    (if Contains(v, "publishedVersion") then 20 else 0) + (if Contains(v, "acceptedVersion") then 10 else 0)
  }

  function EvidenceBonus(d: string): int {
    (if Contains(d, "pmcid lookup") then 1 else 0) + (if Contains(d, "doi") then 2 else 0)
  }

  /** `sort_score`, doubled: publisher copies first at -40; repository
      copies found by "oa repo" evidence are scored by link, version and
      evidence; other copies score 0. */
  function SortScore(loc: OpenLocation, h: LocationHelpers): (r: Result<int, PyError>)
    ensures HostType(loc, h) == Publisher ==> r == Ok(-40)
    ensures HostType(loc, h) != Publisher && !Contains(DisplayEvidence(loc), "oa repo") ==> r == Ok(0)
    ensures r == Err(AttributeError) <==>
      HostType(loc, h) != Publisher && Contains(DisplayEvidence(loc), "oa repo") && BestUrl(loc).None?
    ensures r == Err(TypeError) <==>
      HostType(loc, h) != Publisher && Contains(DisplayEvidence(loc), "oa repo") &&
      BestUrl(loc).Some? && loc.version.None?
    ensures (&& HostType(loc, h) != Publisher && Contains(DisplayEvidence(loc), "oa repo")
             && BestUrl(loc).Some? && loc.version.Some?) ==>
        var v := loc.version.value;
        var d := DisplayEvidence(loc);
        r == Ok(UrlSortScore(BestUrl(loc).value)
                - (if Contains(v, "publishedVersion") then 20 else 0)
                - (if Contains(v, "acceptedVersion") then 10 else 0)
                - (if Contains(d, "pmcid lookup") then 1 else 0)
                - (if Contains(d, "doi") then 2 else 0))
    ensures r.Ok? ==> -44 <= r.value <= 38
  {
    if HostType(loc, h) == Publisher then Ok(-40)
    else if Contains(DisplayEvidence(loc), "oa repo") then
      match BestUrl(loc)
      case None => Err(AttributeError)
      case Some(url) =>
        match loc.version
        case None => Err(TypeError)
        case Some(v) => Ok(UrlSortScore(url) - VersionBonus(v) - EvidenceBonus(DisplayEvidence(loc)))
    else Ok(0)
  }

  /** A publisher copy outranks every repository copy whose version does
      not claim to be both published and accepted. */
  lemma PublisherOutranksRepository(pub: OpenLocation, repo: OpenLocation, h: LocationHelpers)
    requires HostType(pub, h) == Publisher && HostType(repo, h) == Repository
    requires SortScore(repo, h).Ok?
    requires repo.version.Some? ==>
      !(Contains(repo.version.value, "publishedVersion") && Contains(repo.version.value, "acceptedVersion"))
    ensures SortScore(pub, h).value < SortScore(repo, h).value
  {
  }

  /** A version naming both stages earns both deductions, so a pmc copy
      without ftp reaches the publisher rank or beats it. */
  lemma DoubleVersionReachesPublisherRank(pub: OpenLocation, repo: OpenLocation, h: LocationHelpers)
    requires HostType(pub, h) == Publisher && HostType(repo, h) == Repository
    requires Contains(DisplayEvidence(repo), "oa repo")
    requires BestUrl(repo).Some? && Contains(Lower(BestUrl(repo).value), "/pmc/")
    requires !Contains(Lower(BestUrl(repo).value), "ftp")
    requires repo.version.Some?
    requires Contains(repo.version.value, "publishedVersion") && Contains(repo.version.value, "acceptedVersion")
    ensures SortScore(repo, h).value <= SortScore(pub, h).value
  {
  }
}

=== FILE: outcomes.dfy ===
/** Failure-compatible wrappers shared by the whole model. */
module Outcomes {

  /** A nullable value: Python's `None` or a present value. */
  datatype Option<+T> = None | Some(value: T)

  /** A value, or the exception the Python code raises instead of returning. */
  datatype Result<+T, +E> = Ok(value: T) | Err(error: E)
}

=== FILE: redirects.dfy ===
/** `keep_redirecting`: the business-logic redirect resolver. Four rules are
    tried in a fixed order on a fetched response and the first one that fires
    gives the next URL. The pattern matching, URL joining, HTML unescaping,
    host extraction and publisher comparison are library or helper code and
    enter as uninterpreted functions. */
module Redirects {
  import opened Outcomes
  import opened Text
  import opened HttpModel
  import opened BodyReader
  import opened SizeGuard

  /** The helpers the resolver and the fetch loop call into. Each regex
      helper returns the first captured group, or None when the pattern has
      no match. */
  datatype Oracles = Oracles(
    /** `<script>location.href='(.*)'</script>`, ignoring case. */
    jsLocation: Bytes -> Option<string>,
    /** `OvidAN = '(.*?)';`, ignoring case. */
    ovidAn: Bytes -> Option<string>,
    /** `var journalURL = "(.*?)";`, ignoring case. */
    journalUrl: Bytes -> Option<string>,
    /** The whole first `<meta ... http-equiv="refresh" ...>` tag. */
    metaRefresh: Bytes -> Option<string>,
    /** `url=["']?([^">']*)` inside that tag. */
    refreshUrl: string -> Option<string>,
    /** `HTMLParser().unescape`. */
    unescape: string -> string,
    /** `urljoin(base, target)`. */
    urlJoin: (string, string) -> string,
    /** `get_link_target(target, base)`. */
    linkTarget: (string, string) -> string,
    /** `urlparse(url).hostname`. */
    hostname: string -> Option<string>,
    /** `is_same_publisher(a, b)`. */
    samePublisher: (string, string) -> bool,
    /** The truth value of a response object. */
    truthy: Response -> bool)

  /** The JavaScript rule applies only to bodies declared shorter than this. */
  const ShortBody: int := 500
  const OvidPublisher := "Ovid Technologies (Wolters Kluwer Health)"
  const OvidLinkback := "http://content.wkhealth.com/linkback/openurl?an="
  const OvidDomain := "ovid.com"
  /** A meta refresh to this page only says that JavaScript is required. */
  const JavaScriptErrorPage := "Error/JavaScript.html"

  /** Rule 1: a short body holding nothing but a `location.href` script. A
      target starting with `/` is resolved against the response URL; any
      other target, the empty one included, is taken verbatim. */
  function JsRule(r: Response, length: Option<int>, body: Bytes, o: Oracles): (u: Option<string>)
    ensures u.Some? <==> length.Some? && length.value < ShortBody && o.jsLocation(body).Some?
    ensures u.Some? && StartsWith(o.jsLocation(body).value, "/") ==>
      u.value == o.linkTarget(o.jsLocation(body).value, r.url)
    ensures u.Some? && !StartsWith(o.jsLocation(body).value, "/") ==>
      u.value == o.jsLocation(body).value
  {
    if length.Some? && length.value < ShortBody then
      match o.jsLocation(body)
      case Some(target) =>
        Some(if StartsWith(target, "/") then o.linkTarget(target, r.url) else target)
      case None => None
    else None
  }

  /** Rule 2: for the Ovid publisher, an `OvidAN` token is filled into the
      Wolters Kluwer linkback template. */
  function OvidAnRule(publisher: Option<string>, body: Bytes, o: Oracles): (u: Option<string>)
    ensures u.Some? <==>
      Present(publisher) && o.samePublisher(publisher.value, OvidPublisher) && o.ovidAn(body).Some?
    ensures u.Some? ==> u.value == OvidLinkback + o.ovidAn(body).value
  {
    if Present(publisher) && o.samePublisher(publisher.value, OvidPublisher) then
      match o.ovidAn(body)
      case Some(an) => Some(OvidLinkback + an)
      case None => None
    else None
  }

  /** Rule 3: a page served from an `ovid.com` host names its journal URL. */
  function JournalRule(r: Response, body: Bytes, o: Oracles): (u: Option<string>)
    ensures u.Some? ==> Present(o.hostname(r.url)) && EndsWith(o.hostname(r.url).value, OvidDomain)
    ensures u.Some? ==> u == o.journalUrl(body)
    ensures Present(o.hostname(r.url)) && EndsWith(o.hostname(r.url).value, OvidDomain) ==>
      u == o.journalUrl(body)
  {
    var host := o.hostname(r.url);
    if Present(host) && EndsWith(host.value, OvidDomain) then o.journalUrl(body) else None
  }

  /** Rule 4: an HTML meta refresh. Its `url=` parameter is stripped,
      unescaped and joined with the request URL; the JavaScript error page is
      never returned. */
  function MetaRule(r: Response, body: Bytes, o: Oracles): (u: Option<string>)
    ensures u.Some? ==> !EndsWith(u.value, JavaScriptErrorPage)
    ensures u.Some? ==>
      && o.metaRefresh(body).Some?
      && o.refreshUrl(o.metaRefresh(body).value).Some?
      && u.value == o.urlJoin(r.requestUrl, o.unescape(Strip(o.refreshUrl(o.metaRefresh(body).value).value)))
    ensures u.None? && o.metaRefresh(body).Some? && o.refreshUrl(o.metaRefresh(body).value).Some? ==>
      EndsWith(o.urlJoin(r.requestUrl, o.unescape(Strip(o.refreshUrl(o.metaRefresh(body).value).value))),
               JavaScriptErrorPage)
  {
    match o.metaRefresh(body)
    case None => None
    case Some(tag) =>
      match o.refreshUrl(tag)
      case None => None
      case Some(path) =>
        var target := o.urlJoin(r.requestUrl, o.unescape(Strip(path)));
        if EndsWith(target, JavaScriptErrorPage) then None else Some(target)
  }

  /** The first present entry of a list of candidates. */
  function FirstSome(candidates: seq<Option<string>>): (u: Option<string>)
    ensures u.Some? ==> exists i :: 0 <= i < |candidates| && candidates[i] == u
    ensures u.None? ==> forall i :: 0 <= i < |candidates| ==> candidates[i].None?
    decreases |candidates|
  {
    if |candidates| == 0 then None
    else if candidates[0].Some? then candidates[0]
    else FirstSome(candidates[1..])
  }

  /** The first-match reading of `FirstSome`: rule i wins exactly when it
      fires and no rule before it does. */
  lemma {:induction false} FirstSomeWins(candidates: seq<Option<string>>, i: nat)
    requires i < |candidates| && candidates[i].Some?
    requires forall j :: 0 <= j < i ==> candidates[j].None?
    ensures FirstSome(candidates) == candidates[i]
    decreases i
  {
    if i > 0 {
      FirstSomeWins(candidates[1..], i - 1);
    }
  }

  /** The four rules, in the order in which the resolver tries them. */
  function Rules(r: Response, length: Option<int>, publisher: Option<string>, body: Bytes, o: Oracles): (rs: seq<Option<string>>)
    ensures |rs| == 4
  {
    [JsRule(r, length, body, o), OvidAnRule(publisher, body, o), JournalRule(r, body, o), MetaRule(r, body, o)]
  }

  /** The resolver's answer and the response afterwards (its body memoised). */
  datatype Decision = Decision(result: Result<Option<string>, Exc>, response: Response)

  /** `keep_redirecting(r, publisher)`. An unparsable declared length raises
      before anything is read. Otherwise every path reads the body once
      (through the memo), so the body is read up front and the rules are
      applied to it in order. */
  function KeepRedirecting(r: Response, publisher: Option<string>, o: Oracles): (d: Decision)
    ensures d.result.Err? <==> DeclaredLength(r.headers).Err?
    ensures d.result.Err? ==> d.result.error == ValueError && d.response == r
    ensures d.result.Ok? ==>
      && d.response.body.read == Some(ContentSmall(r.body).0)
      && SameMessage(d.response, r) && d.response.encoding == r.encoding
    ensures d.result.Ok? && r.body.read.Some? ==> d.response == r
    ensures d.result.Ok? && r.body.read.None? && r.body.raw ==>
      d.response.body.closed == (r.body.closed || ReadCapped(r.body.chunks).truncated)
    ensures d.result.Ok? && r.body.read.None? && !r.body.raw ==> d.response.body.closed == r.body.closed
  {
    match DeclaredLength(r.headers)
    case Err(e) => Decision(Err(e), r)
    case Ok(length) =>
      var (body, after) := ContentSmall(r.body);
      Decision(Ok(FirstSome(Rules(r, length, publisher, body, o))), r.(body := after))
  }

  /** The bytes the rules look at. */
  function SniffedBody(r: Response): Bytes {
    ContentSmall(r.body).0
  }

  /** Past the length check, the resolver's answer is the first rule that
      fires on the body read through the memo. */
  lemma KeepRedirectingAnswer(r: Response, publisher: Option<string>, o: Oracles, length: Option<int>)
    requires DeclaredLength(r.headers) == Ok(length)
    ensures KeepRedirecting(r, publisher, o).result == Ok(FirstSome(Rules(r, length, publisher, SniffedBody(r), o)))
  {
  }

  /** Resolver order: if rule i (0 JavaScript, 1 Ovid AN, 2 ovid.com journal
      URL, 3 meta refresh) fires and no earlier rule does, the resolver
      returns rule i's URL. */
  lemma ResolverFirstMatchWins(r: Response, publisher: Option<string>, o: Oracles, length: Option<int>, i: nat)
    requires DeclaredLength(r.headers) == Ok(length)
    requires i < 4
    requires Rules(r, length, publisher, SniffedBody(r), o)[i].Some?
    requires forall j :: 0 <= j < i ==> Rules(r, length, publisher, SniffedBody(r), o)[j].None?
    ensures KeepRedirecting(r, publisher, o).result == Ok(Rules(r, length, publisher, SniffedBody(r), o)[i])
  {
    FirstSomeWins(Rules(r, length, publisher, SniffedBody(r), o), i);
  }

  /** When no rule fires the resolver answers None; when it answers with a
      URL, some rule produced it. */
  lemma ResolverNoneIffNoRule(r: Response, publisher: Option<string>, o: Oracles, length: Option<int>)
    requires DeclaredLength(r.headers) == Ok(length)
    ensures var rs := Rules(r, length, publisher, SniffedBody(r), o);
      KeepRedirecting(r, publisher, o).result == Ok(None) <==> (forall j :: 0 <= j < 4 ==> rs[j].None?)
  {
    var rs := Rules(r, length, publisher, SniffedBody(r), o);
    if forall j :: 0 <= j < 4 ==> rs[j].None? {
      assert rs[1..][1..][1..][1..] == [];
    }
  }

  /** With the Ovid publisher and an AN token, and no short JavaScript page
      before it, the next URL is the linkback template filled with the AN. */
  lemma OvidLinkbackRedirect(r: Response, publisher: Option<string>, o: Oracles, length: Option<int>)
    requires DeclaredLength(r.headers) == Ok(length)
    requires JsRule(r, length, SniffedBody(r), o).None?
    requires Present(publisher) && o.samePublisher(publisher.value, OvidPublisher)
    requires o.ovidAn(SniffedBody(r)).Some?
    ensures KeepRedirecting(r, publisher, o).result == Ok(Some(OvidLinkback + o.ovidAn(SniffedBody(r)).value))
  {
    var body := SniffedBody(r);
    var rs := Rules(r, length, publisher, body, o);
    assert rs[0] == JsRule(r, length, body, o);
    assert rs[1] == OvidAnRule(publisher, body, o) == Some(OvidLinkback + o.ovidAn(body).value);
    KeepRedirectingAnswer(r, publisher, o, length);
    FirstSomeWins(rs, 1);
  }

  /** Whatever rule fires, the resolver never sends the fetch to the
      JavaScript error page by way of a meta refresh: a URL ending in it can
      only come from one of the three earlier rules. */
  lemma ResolverSuppressesErrorPage(r: Response, publisher: Option<string>, o: Oracles, length: Option<int>, u: string)
    requires DeclaredLength(r.headers) == Ok(length)
    requires KeepRedirecting(r, publisher, o).result == Ok(Some(u))
    requires EndsWith(u, JavaScriptErrorPage)
    ensures var rs := Rules(r, length, publisher, SniffedBody(r), o);
      rs[0].Some? || rs[1].Some? || rs[2].Some?
  {
    var rs := Rules(r, length, publisher, SniffedBody(r), o);
    var i :| 0 <= i < |rs| && rs[i] == Some(u);
  }
}

=== FILE: size_guard.dfy ===
/** The declared-length check done before any body is read. */
module SizeGuard {
  import opened Outcomes
  import opened Text
  import opened HttpModel

  /** 25,000,000 bytes: decimal megabytes, unlike the reader's 25 MiB. */
  const TooLargeBytes: int := 25 * 1000 * 1000

  /** The lower-cased name under which the declared length is looked up. */
  const ContentLengthKey := "content-length"

  /** `int(headers["content-length"])`: no header gives Ok(None), a numeral
      gives its value, anything else raises `ValueError`. */
  function DeclaredLength(h: Headers): (r: Result<Option<int>, Exc>)
    ensures ContentLengthKey !in h ==> r == Ok(None)
    ensures ContentLengthKey in h && ParseInt(h[ContentLengthKey]).Some? ==>
      r == Ok(Some(ParseInt(h[ContentLengthKey]).value))
    ensures ContentLengthKey in h && ParseInt(h[ContentLengthKey]).None? ==> r == Err(ValueError)
  {
    if ContentLengthKey !in h then Ok(None)
    else match ParseInt(h[ContentLengthKey])
      case Some(n) => Ok(Some(n))
      case None => Err(ValueError)
  }

  /** `is_response_too_large`: without a declared length it cannot tell and
      answers false; otherwise true exactly when the declared length is at
      least 25,000,000. An unparsable length raises. The body is never read. */
  function IsResponseTooLarge(r: Response): (res: Result<bool, Exc>)
    ensures ContentLengthKey !in r.headers ==> res == Ok(false)
    ensures DeclaredLength(r.headers) == Ok(Some(TooLargeBytes)) ==> res == Ok(true)
    ensures DeclaredLength(r.headers) == Ok(Some(TooLargeBytes - 1)) ==> res == Ok(false)
    ensures res.Err? <==> DeclaredLength(r.headers).Err?
    ensures forall n :: DeclaredLength(r.headers) == Ok(Some(n)) ==> res == Ok(n >= TooLargeBytes)
  {
    match DeclaredLength(r.headers)
    case Err(e) => Err(e)
    case Ok(None) => Ok(false)
    case Ok(Some(n)) => Ok(n >= TooLargeBytes)
  }

  /** For every length written as a plain numeral, the guard fires exactly
      from 25,000,000 on. */
  lemma TooLargeIffAtLeastThreshold(r: Response, n: nat)
    requires ContentLengthKey in r.headers && r.headers[ContentLengthKey] == NatToString(n)
    ensures IsResponseTooLarge(r) == Ok(n >= TooLargeBytes)
  {
    ParseIntOfNatToString(n);
  }

  /** A negative declared length parses and is never too large. */
  lemma NegativeLengthNotTooLarge(r: Response, n: nat)
    requires ContentLengthKey in r.headers && r.headers[ContentLengthKey] == "-" + NatToString(n)
    ensures IsResponseTooLarge(r) == Ok(false)
  {
    ParseIntOfNegated(n);
  }
}

=== FILE: text.dfy ===
/** The string operations of Python 2 that the model relies on: `in`,
    `startswith`, `endswith`, `lower`, `replace`, `strip`, `split(...)[0]`
    and `int()`, written out over `seq<char>`. */
module Text {
  import opened Outcomes

  /** Python truthiness of a nullable string: present and non-empty. */
  predicate Present(o: Option<string>) {
    o.Some? && o.value != ""
  }

  predicate StartsWith(s: string, p: string) {
    |p| <= |s| && s[..|p|] == p
  }

  predicate EndsWith(s: string, p: string) {
    |p| <= |s| && s[|s| - |p|..] == p
  }

  /** `p in s`: scans s left to right for an occurrence of p. */
  predicate Contains(s: string, p: string)
    decreases |s|
  {
    StartsWith(s, p) || (|s| > 0 && Contains(s[1..], p))
  }

  /** Independent definition of an occurrence: p sits at offset i of s. */
  ghost predicate OccursAt(s: string, p: string, i: int) {
    0 <= i && i + |p| <= |s| && s[i..i + |p|] == p
  }

  /** An occurrence at any offset is found by the scan. */
  lemma {:induction false} ContainsFromOccurrence(s: string, p: string, i: int)
    requires OccursAt(s, p, i)
    ensures Contains(s, p)
    decreases i
  {
    if i == 0 {
      assert StartsWith(s, p);
    } else {
      assert s[1..][i - 1..i - 1 + |p|] == s[i..i + |p|];
      ContainsFromOccurrence(s[1..], p, i - 1);
    }
  }

  /** The scan only succeeds at a real occurrence, whose offset it returns. */
  lemma {:induction false} OccurrenceFromContains(s: string, p: string) returns (i: int)
    requires Contains(s, p)
    ensures OccursAt(s, p, i)
    decreases |s|
  {
    if StartsWith(s, p) {
      i := 0;
    } else {
      var j := OccurrenceFromContains(s[1..], p);
      assert s[1..][j..j + |p|] == s[j + 1..j + 1 + |p|];
      i := j + 1;
    }
  }

  /** The scanning definition of `Contains` agrees with the positional one. */
  lemma ContainsIff(s: string, p: string)
    ensures Contains(s, p) <==> exists i :: OccursAt(s, p, i)
  {
    if Contains(s, p) {
      var i := OccurrenceFromContains(s, p);
    }
    if exists i :: OccursAt(s, p, i) {
      var i :| OccursAt(s, p, i);
      ContainsFromOccurrence(s, p, i);
    }
  }

  /** An occurrence inside an occurrence is an occurrence. */
  lemma ContainsTransitive(s: string, p: string, q: string)
    requires Contains(s, p) && Contains(p, q)
    ensures Contains(s, q)
  {
    var i := OccurrenceFromContains(s, p);
    var j := OccurrenceFromContains(p, q);
    forall k | 0 <= k < |q|
      ensures s[i + j + k] == q[k]
    {
      assert q[k] == p[j + k];
      assert p[j + k] == s[i + j + k];
    }
    assert s[i + j..i + j + |q|] == q;
    ContainsFromOccurrence(s, q, i + j);
  }

  /** A string shorter than the pattern cannot contain it. */
  lemma {:induction false} TooShortToContain(s: string, p: string)
    requires |s| < |p|
    ensures !Contains(s, p)
    decreases |s|
  {
    if |s| > 0 {
      TooShortToContain(s[1..], p);
    }
  }

  /** A prefix that does not contain the pattern's first character cannot
      hold the start of an occurrence. */
  lemma {:induction false} SkipPrefix(u: string, x: string, p: string)
    requires |p| > 0 && p[0] !in u
    ensures Contains(u + x, p) ==> Contains(x, p)
    decreases |u|
  {
    if |u| > 0 {
      assert (u + x)[0] == u[0];
      assert (u + x)[1..] == u[1..] + x;
      SkipPrefix(u[1..], x, p);
    } else {
      assert u + x == x;
    }
  }

  function LowerChar(c: char): char {
    if 'A' <= c <= 'Z' then (c as int + 32) as char else c
  }

  /** `str.lower()` on ASCII letters; every other character is kept. */
  function Lower(s: string): (r: string)
    ensures |r| == |s|
    ensures forall i :: 0 <= i < |s| ==> r[i] == LowerChar(s[i])
  {
    seq(|s|, i requires 0 <= i < |s| => LowerChar(s[i]))
  }

  /** Lower-casing twice is lower-casing once. */
  lemma LowerIdempotent(s: string)
    ensures Lower(Lower(s)) == Lower(s)
  {
    assert forall i :: 0 <= i < |s| ==> LowerChar(LowerChar(s[i])) == LowerChar(s[i]);
  }

  /** `s.replace(pat, rep)`: non-overlapping occurrences, left to right. */
  function ReplaceAll(s: string, pat: string, rep: string): string
    requires |pat| > 0
    decreases |s|
  {
    if |s| < |pat| then s
    else if StartsWith(s, pat) then rep + ReplaceAll(s[|pat|..], pat, rep)
    else [s[0]] + ReplaceAll(s[1..], pat, rep)
  }

  /** Replacing a pattern that does not occur changes nothing. */
  lemma {:induction false} ReplaceAllAbsent(s: string, pat: string, rep: string)
    requires |pat| > 0 && !Contains(s, pat)
    ensures ReplaceAll(s, pat, rep) == s
    decreases |s|
  {
    if |s| >= |pat| {
      ReplaceAllAbsent(s[1..], pat, rep);
      assert s == [s[0]] + s[1..];
    }
  }

  /** A replacement that is never empty keeps a non-empty string non-empty. */
  lemma ReplaceAllNonEmpty(s: string, pat: string, rep: string)
    requires |pat| > 0 && |rep| > 0 && |s| > 0
    ensures |ReplaceAll(s, pat, rep)| > 0
  {
  }

  /** When s starts with the pattern, the result starts with the replacement. */
  lemma ReplaceAllLeading(s: string, pat: string, rep: string)
    requires |pat| > 0 && StartsWith(s, pat)
    ensures StartsWith(ReplaceAll(s, pat, rep), rep)
  {
    var r := ReplaceAll(s, pat, rep);
    assert r == rep + ReplaceAll(s[|pat|..], pat, rep);
    assert r[..|rep|] == rep;
  }

  /** A string that starts with the pattern is rewritten to one that starts
      with the replacement. */
  lemma ReplaceAllHead(t: string, pat: string, rep: string)
    requires |pat| > 0 && |rep| > 0 && StartsWith(t, pat)
    ensures |ReplaceAll(t, pat, rep)| > 0 && ReplaceAll(t, pat, rep)[0] == rep[0]
  {
  }

  /** A prefix of the result that never holds the replacement's first
      character was already a prefix of the input. */
  lemma {:induction false} ReplaceAllPrefixBack(t: string, w: string, pat: string, rep: string)
    requires |pat| > 0 && |rep| > 0
    requires rep[0] !in w
    ensures StartsWith(ReplaceAll(t, pat, rep), w) ==> StartsWith(t, w)
    decreases |t|
  {
    var r := ReplaceAll(t, pat, rep);
    if |w| > 0 && |t| >= |pat| && StartsWith(r, w) {
      assert w[0] in w && r[0] == w[0];
      if StartsWith(t, pat) {
        ReplaceAllHead(t, pat, rep);
      }
      assert !StartsWith(t, pat);
      var y := ReplaceAll(t[1..], pat, rep);
      assert r == [t[0]] + y;
      assert w[1..] == y[..|w| - 1];
      assert rep[0] !in w[1..];
      ReplaceAllPrefixBack(t[1..], w[1..], pat, rep);
      assert |w| <= |t| && t[1..][..|w| - 1] == w[1..];
      assert t[..|w|] == [t[0]] + t[1..][..|w| - 1];
    }
  }

  /** With alphabets of pattern and replacement disjoint, no occurrence of
      the pattern survives the replacement. */
  lemma {:induction false} ReplaceAllEliminates(s: string, pat: string, rep: string)
    requires |pat| > 0 && |rep| > 0
    requires forall c :: c in pat ==> c !in rep
    ensures !Contains(ReplaceAll(s, pat, rep), pat)
    decreases |s|
  {
    if |s| < |pat| {
      TooShortToContain(s, pat);
    } else if StartsWith(s, pat) {
      var rest := ReplaceAll(s[|pat|..], pat, rep);
      ReplaceAllEliminates(s[|pat|..], pat, rep);
      SkipPrefix(rep, rest, pat);
    } else {
      var y := ReplaceAll(s[1..], pat, rep);
      ReplaceAllEliminates(s[1..], pat, rep);
      assert ReplaceAll(s, pat, rep) == [s[0]] + y;
      assert ([s[0]] + y)[1..] == y;
      assert rep[0] in rep;
      ReplaceAllPrefixBack(s[1..], pat[1..], pat, rep);
      StartsWithCons(s[0], y, pat);
      StartsWithCons(s[0], s[1..], pat);
      assert [s[0]] + s[1..] == s;
    }
  }

  /** No occurrence of the pattern survives even when the replacement
      shares characters with it, provided an occurrence can neither begin
      at the replacement's head nor inside it, and the replacement's head
      does not reappear in the pattern. */
  lemma {:induction false} ReplaceAllEliminatesOverlapping(s: string, pat: string, rep: string)
    requires 0 < |pat| <= |rep| && rep[..|pat|] != pat
    requires pat[0] !in rep[1..] && rep[0] !in pat[1..]
    ensures !Contains(ReplaceAll(s, pat, rep), pat)
    decreases |s|
  {
    if |s| < |pat| {
      TooShortToContain(s, pat);
    } else if StartsWith(s, pat) {
      var rest := ReplaceAll(s[|pat|..], pat, rep);
      ReplaceAllEliminatesOverlapping(s[|pat|..], pat, rep);
      assert (rep + rest)[..|pat|] == rep[..|pat|];
      assert (rep + rest)[1..] == rep[1..] + rest;
      SkipPrefix(rep[1..], rest, pat);
    } else {
      var y := ReplaceAll(s[1..], pat, rep);
      ReplaceAllEliminatesOverlapping(s[1..], pat, rep);
      assert ReplaceAll(s, pat, rep) == [s[0]] + y;
      assert ([s[0]] + y)[1..] == y;
      ReplaceAllPrefixBack(s[1..], pat[1..], pat, rep);
      StartsWithCons(s[0], y, pat);
      StartsWithCons(s[0], s[1..], pat);
      assert [s[0]] + s[1..] == s;
    }
  }

  /** A string starts with p when its head is p's head and its tail starts
      with the rest of p. */
  lemma StartsWithCons(c: char, t: string, p: string)
    requires |p| > 0
    ensures StartsWith([c] + t, p) <==> c == p[0] && StartsWith(t, p[1..])
  {
    var s := [c] + t;
    if |p| <= |s| {
      assert s[..|p|] == [c] + t[..|p| - 1];
    }
  }

  /** A prefix holding no first character of the pattern is copied through
      unchanged, since no occurrence can start inside it. */
  lemma {:induction false} ReplaceAllKeepsPrefix(s: string, w: string, pat: string, rep: string)
    requires |pat| > 0 && StartsWith(s, w) && pat[0] !in w
    ensures StartsWith(ReplaceAll(s, pat, rep), w)
    decreases |w|
  {
    if |w| > 0 && |s| >= |pat| {
      assert s[0] == w[0] && w[0] in w;
      assert !StartsWith(s, pat);
      var y := ReplaceAll(s[1..], pat, rep);
      assert ReplaceAll(s, pat, rep) == [s[0]] + y;
      assert s[1..][..|w| - 1] == w[1..];
      ReplaceAllKeepsPrefix(s[1..], w[1..], pat, rep);
      assert ([s[0]] + y)[..|w|] == [s[0]] + y[..|w| - 1];
    }
  }

  /** Python's `str.isspace()` on one byte: space, \t, \n, \v, \f, \r. */
  predicate IsSpace(c: char) {
    c == ' ' || c == '\t' || c == '\n' || c == '\r' || c as int == 11 || c as int == 12
  }

  function TrimLeft(s: string): (r: string)
    ensures |r| <= |s| && r == s[|s| - |r|..]
    ensures |r| > 0 ==> !IsSpace(r[0])
    ensures forall i :: 0 <= i < |s| - |r| ==> IsSpace(s[i])
    decreases |s|
  {
    if |s| > 0 && IsSpace(s[0]) then
      var t := TrimLeft(s[1..]);
      assert s[1..][|s| - 1 - |t|..] == s[|s| - |t|..];
      assert forall i :: 1 <= i < |s| - |t| ==> s[i] == s[1..][i - 1];
      t
    else s
  }

  function TrimRight(s: string): (r: string)
    ensures |r| <= |s| && r == s[..|r|]
    ensures |r| > 0 ==> !IsSpace(r[|r| - 1])
    ensures forall i :: |r| <= i < |s| ==> IsSpace(s[i])
    decreases |s|
  {
    if |s| > 0 && IsSpace(s[|s| - 1]) then TrimRight(s[..|s| - 1]) else s
  }

  /** `s.strip()`: drops leading and trailing whitespace. */
  function Strip(s: string): string {
    TrimRight(TrimLeft(s))
  }

  /** `s.split(c)[0]`: the text before the first c, or all of s. */
  function BeforeFirst(s: string, c: char): (r: string)
    ensures StartsWith(s, r)
    ensures c !in r
    ensures |r| < |s| ==> s[|r|] == c
    decreases |s|
  {
    if |s| == 0 then ""
    else if s[0] == c then ""
    else [s[0]] + BeforeFirst(s[1..], c)
  }

  /** The text before the first separator of `c + sep + rest` is c, when c
      holds no separator: `split` recovers the leading field it was given. */
  lemma {:induction false} BeforeFirstOfJoin(c: string, sep: char, rest: string)
    requires sep !in c
    ensures BeforeFirst(c + [sep] + rest, sep) == c
    decreases |c|
  {
    var s := c + [sep] + rest;
    if |c| == 0 {
      assert s[0] == sep;
    } else {
      assert c[0] in c;
      assert s[1..] == c[1..] + [sep] + rest;
      BeforeFirstOfJoin(c[1..], sep, rest);
      assert c == [c[0]] + c[1..];
    }
  }

  predicate IsDigit(c: char) {
    '0' <= c <= '9'
  }

  predicate AllDigits(s: string) {
    forall i :: 0 <= i < |s| ==> IsDigit(s[i])
  }

  function DigitValue(c: char): nat
    requires IsDigit(c)
  {
    c as int - '0' as int
  }

  function DigitChar(d: nat): (c: char)
    requires d < 10
    ensures IsDigit(c) && DigitValue(c) == d
  {
    ('0' as int + d) as char
  }

  /** The value of a decimal numeral, most significant digit first. */
  function DigitsValue(s: string): nat
    requires AllDigits(s)
    decreases |s|
  {
    if |s| == 0 then 0 else DigitsValue(s[..|s| - 1]) * 10 + DigitValue(s[|s| - 1])
  }

  /** The decimal numeral of n, without leading zeros. */
  function NatToString(n: nat): (r: string)
    ensures |r| > 0 && AllDigits(r)
    decreases n
  {
    if n < 10 then [DigitChar(n)] else NatToString(n / 10) + [DigitChar(n % 10)]
  }

  /** Python 2's `int()` on a byte string in base 10: surrounding
      whitespace, an optional sign, whitespace after the sign, then at least
      one digit. Anything else is a `ValueError`, modelled as None. */
  function ParseInt(s: string): (r: Option<int>)
    ensures r.Some? ==> |Strip(s)| > 0
    ensures |Strip(s)| > 0 && AllDigits(Strip(s)) ==> r == Some(DigitsValue(Strip(s)))
    ensures |Strip(s)| > 0 && Strip(s)[0] !in "+-" && !AllDigits(Strip(s)) ==> r.None?
    ensures var t := Strip(s);
      |t| > 0 && t[0] in "+-" ==>
        var d := TrimLeft(t[1..]);
        && (r.Some? <==> |d| > 0 && AllDigits(d))
        && (r.Some? && t[0] == '-' ==> r.value == -(DigitsValue(d) as int))
        && (r.Some? && t[0] == '+' ==> r.value == DigitsValue(d))
  {
    var t := Strip(s);
    if |t| > 0 && (t[0] == '+' || t[0] == '-') then
      var d := TrimLeft(t[1..]);
      if |d| > 0 && AllDigits(d) then
        var v: int := DigitsValue(d);
        Some(if t[0] == '-' then -v else v)
      else None
    else if |t| > 0 && AllDigits(t) then Some(DigitsValue(t))
    else None
  }

  lemma {:induction false} DigitsValueOfNatToString(n: nat)
    ensures DigitsValue(NatToString(n)) == n
    decreases n
  {
    var s := NatToString(n);
    if n >= 10 {
      DigitsValueOfNatToString(n / 10);
      assert s[..|s| - 1] == NatToString(n / 10);
    }
  }

  /** `int(str(n))` is n: the parser reads back every numeral it can meet. */
  lemma ParseIntOfNatToString(n: nat)
    ensures ParseInt(NatToString(n)) == Some(n)
  {
    var s := NatToString(n);
    assert !IsSpace(s[0]) && !IsSpace(s[|s| - 1]);
    assert TrimLeft(s) == s;
    assert TrimRight(s) == s;
    DigitsValueOfNatToString(n);
  }

  /** `int("-" + str(n))` is -n. */
  lemma ParseIntOfNegated(n: nat)
    ensures ParseInt("-" + NatToString(n)) == Some(-(n as int))
  {
    var d := NatToString(n);
    var s := "-" + d;
    assert s[1..] == d;
    assert !IsSpace(d[0]) && !IsSpace(d[|d| - 1]);
    assert TrimLeft(d) == d;
    assert !IsSpace(s[0]) && !IsSpace(s[|s| - 1]);
    assert TrimLeft(s) == s;
    assert TrimRight(s) == s;
    DigitsValueOfNatToString(n);
  }
}

=== FILE: transport.dfy ===
/** What `call_requests_get` decides before each GET: the identification
    headers, the transport retry policy, and the proxy route. */
module Transport {
  import opened Outcomes
  import opened Text
  import opened HttpModel

  const UserAgentKey := "User-Agent"
  const FromKey := "From"
  const UserAgentValue := "Unpaywall (http://unpaywall.org/; mailto:team@impactstory.org)"
  const FromValue := "team@impactstory.org"

  /** `request_ua_headers()`. */
  function RequestUaHeaders(): (h: Headers)
    ensures h.Keys == {UserAgentKey, FromKey}
    ensures h[UserAgentKey] == UserAgentValue && h[FromKey] == FromValue
  {
    map[UserAgentKey := UserAgentValue, FromKey := FromValue]
  }

  /** The caller's headers with `User-Agent` and `From` added only where the
      caller did not set them; caller values are never overwritten. */
  function DefaultHeaders(h: Headers): (r: Headers)
    ensures r.Keys == h.Keys + {UserAgentKey, FromKey}
    ensures forall k :: k in h ==> r[k] == h[k]
    ensures UserAgentKey !in h ==> r[UserAgentKey] == RequestUaHeaders()[UserAgentKey]
    ensures FromKey !in h ==> r[FromKey] == RequestUaHeaders()[FromKey]
  {
    var withAgent := if UserAgentKey in h then h else h[UserAgentKey := RequestUaHeaders()[UserAgentKey]];
    if FromKey in withAgent then withAgent else withAgent[FromKey := RequestUaHeaders()[FromKey]]
  }

  /** The defaults are added in place, so a later call on the same dict sees
      them already present; adding them twice is adding them once. */
  lemma DefaultHeadersIdempotent(h: Headers)
    ensures DefaultHeaders(DefaultHeaders(h)) == DefaultHeaders(h)
  {
    var d := DefaultHeaders(h);
    var dd := DefaultHeaders(d);
    assert dd.Keys == d.Keys;
    assert forall k :: k in d ==> dd[k] == d[k];
  }

  /** The transport retry policy mounted on each session: a total retry
      count, a backoff factor in tenths of a second, and the statuses that
      trigger a retry. Only the selection is modelled, not the retrying. */
  datatype RetryPolicy = RetryPolicy(total: nat, backoffTenths: nat, statusForcelist: set<int>)

  /** One transport retry when asking slowly, none otherwise. */
  function TransportRetries(askSlowly: bool): (p: RetryPolicy)
    ensures p.total == (if askSlowly then 1 else 0)
    ensures p.backoffTenths == 1 && p.statusForcelist == {500, 502, 503, 504}
  {
    RetryPolicy(if askSlowly then 1 else 0, 1, {500, 502, 503, 504})
  }

  const CiteseerxHost := "citeseerx.ist.psu.edu/"

  /** The URL actually requested and the proxy map passed with it. */
  datatype Route = Route(url: string, proxies: map<string, Option<string>>)

  /** citeseerx is reached over https through the proxy named by the
      environment (`proxyEnv`, None when unset); every other URL goes out
      unchanged with an empty proxy map. Every `http://` in a citeseerx URL
      is rewritten, not only a leading one. */
  function RouteFor(url: string, proxyEnv: Option<string>): (rt: Route)
    ensures Contains(url, CiteseerxHost) ==>
      rt.proxies.Keys == {"https", "http"} && rt.proxies["https"] == proxyEnv && rt.proxies["http"] == proxyEnv
    ensures Contains(url, CiteseerxHost) ==> !Contains(rt.url, "http://")
    ensures !Contains(url, CiteseerxHost) ==> rt.url == url && rt.proxies == map[]
  {
    if Contains(url, CiteseerxHost) then
      assert "https://"[..7] != "http://" by { assert "https://"[4] != "http://"[4]; }
      ReplaceAllEliminatesOverlapping(url, "http://", "https://");
      Route(ReplaceAll(url, "http://", "https://"), map["https" := proxyEnv, "http" := proxyEnv])
    else Route(url, map[])
  }

  /** A citeseerx URL given with the http scheme is requested with https. */
  lemma CiteseerxForcesHttps(rest: string, proxyEnv: Option<string>)
    requires Contains("http://" + rest, CiteseerxHost)
    ensures StartsWith(RouteFor("http://" + rest, proxyEnv).url, "https://")
  {
    var url := "http://" + rest;
    assert StartsWith(url, "http://");
    ReplaceAllLeading(url, "http://", "https://");
  }

  /** A citeseerx URL whose only `http://` is its scheme is requested as
      `https://` followed by the rest of the URL, unchanged. */
  lemma CiteseerxSchemeRewritten(rest: string, proxyEnv: Option<string>)
    requires Contains("http://" + rest, CiteseerxHost) && !Contains(rest, "http://")
    ensures RouteFor("http://" + rest, proxyEnv).url == "https://" + rest
  {
    var url := "http://" + rest;
    assert StartsWith(url, "http://");
    assert url[7..] == rest;
    ReplaceAllAbsent(rest, "http://", "https://");
  }

  /** A citeseerx URL without any `http://` in it is requested unchanged,
      only the proxy is added. */
  lemma CiteseerxHttpsUnchanged(url: string, proxyEnv: Option<string>)
    requires Contains(url, CiteseerxHost) && !Contains(url, "http://")
    ensures RouteFor(url, proxyEnv).url == url
  {
    ReplaceAllAbsent(url, "http://", "https://");
  }
}
